=== FILE: README.md ===
# Band-split delay: delay-line and mixing core

A model of the block processing of `BandSplitDelayAudioProcessor`, a
three-band delay plugin. The crossover filters split the host block into a
low, a mid and a high band. Each band runs through its own circular delay
buffer of `L = 2 × sampleRate` samples per channel. All three buffers share
one write cursor, `writePosition`. Per block and per input channel, each
band goes through three steps:
- `fillBuffer` writes the band block at the cursor;
- `readFromBuffer` adds half of the block that lies `d` samples behind the
  cursor;
- `fillBuffer` writes the result again.

The dry snapshot and the wet band blocks are then scaled by their gains and
summed into the cleared host buffer, and the cursor advances by the block
length modulo `L`.

Modules, following the structure of the processor:

- `Buffers`: buffers as sequences of channels of samples. Holds the two
  segment primitives the processor calls, `copyFrom` and
  `addFrom`/`addFromWithRamp` with equal start and end gain.
- `Cursor`: the split of a circular copy into a tail and a head segment,
  the read-position correction, and the cursor advance.
- `DelayLine`: `fillBuffer` and `readFromBuffer` on one channel and on a
  whole buffer. Also `readFromBuffer` as written for a fractional delay.
- `BandMixer`: `applyGain`, `clear`, `addFilterBand` and the six-way mix.
- `TempoSync`: `ChangeDelayTime` as written, the intended division
  factors, and the quarter-note delay in samples.
- `Engine`: the processor state, the delay loop over channels and bands,
  one block callback, and a run of consecutive callbacks.
- `History`: what a block of a run hears from the blocks before it, through
  the delay buffers the run has written.

Samples are `real`: gains and additions are exact. Copies are generic in
the sample type. The delay is a whole number of samples `d`, given as a
parameter. In the source it is the real value `sampleRate × 60 / bpm`.
`ReadFromBufferAsWritten` models the real value where it matters.

## Model

| member | source | states |
|---|---|---|
| Buffers.CopySegment | Source/PluginProcessor.cpp:419-427 | `copyFrom` overwrites exactly the window `[at, at+count)` with the source samples from `from` on; every other sample is unchanged and the length is kept |
| Buffers.AddSegment | Source/PluginProcessor.cpp:392-400 | `addFromWithRamp` with equal gains adds `gain ×` source into exactly the window `[at, at+count)` and leaves the rest unchanged |
| Cursor.PlanCopy | Source/PluginProcessor.cpp:417-427 | the two copy counts are non-negative and sum to the block length; the tail segment ends inside the buffer; a head segment exists only when the tail reaches the end, and is no longer than the start position, so both copies stay in `[0, L)` whenever `n ≤ L` |
| Cursor.PlanCopyPlacesModular | Source/PluginProcessor.cpp:396-400 | block sample `k` of a split copy sits at circular position `(pos + k) mod L`: at `pos + k` in the tail segment, at `k - tail` in the head segment |
| Cursor.ReadPosition | Source/PluginProcessor.cpp:382-388 | the single `+ L` correction gives a read position in `[0, L)` equal to `(w - d) mod L` exactly when `d ≤ w + L`; for a longer delay it stays negative |
| Cursor.Advance | Source/PluginProcessor.cpp:323-327 | the cursor after a block lies in `[0, L)`; it is `w + n`, or `w + n - L` after one wrap |
| Cursor.AdvanceCompose | Source/PluginProcessor.cpp:326-327 | advancing by `a` and then by `b` is advancing by `a + b`, so after a run of blocks the cursor is the starting cursor advanced by the total sample count, modulo `L` |
| Cursor.AdvanceBehind | Source/PluginProcessor.cpp:326-327 | reading `d` places behind the advanced cursor, `k` samples into the next block, lands on the ring slot where sample `n + k - d` of the previous block went |
| DelayLine.SplitWriteIsFill | Source/PluginProcessor.cpp:417-429 | the two `copyFrom` calls of `fillBuffer`, the tail segment at the cursor and the head segment at 0 with the counts `PlanCopy` gives, write exactly the circular write `FillChannel`: delay-line index `j` holds block sample `(j - w) mod L` when that is less than the block length, and its old sample otherwise |
| DelayLine.FillChannelPlaces | Source/PluginProcessor.cpp:417-429 | block sample `k` is found at `(w + k) mod L` after the write |
| DelayLine.FillBuffer | Source/PluginProcessor.cpp:406-430 | `fillBuffer` rewrites only channel `channel` of the delay buffer, as `FillChannel` describes; every other channel is unchanged |
| DelayLine.NextFillPreservesHistory | Source/PluginProcessor.cpp:417-429 | a block written at the advanced cursor does not overwrite the previous block while both fit in `L` |
| DelayLine.FillConsecutive | Source/PluginProcessor.cpp:326-327 | writing block `a` at `w` and then block `b` at the cursor advanced past `a` is writing `a + b` at `w`, while the two fit in `L`: consecutive blocks lie end to end around the ring |
| DelayLine.FillTwiceKeepsSecond | Source/PluginProcessor.cpp:280-282 | two writes of equal length at the same cursor leave exactly the second one |
| DelayLine.ReadChannel | Source/PluginProcessor.cpp:389-403 | block sample `k` becomes `old[k] + 0.5 × line[(r + k) mod L]` for every `k`, across the wrap |
| DelayLine.ReadDelayed | Source/PluginProcessor.cpp:382-403 | block sample `k` becomes `old[k] + 0.5 × line[(w - d + k) mod L]` |
| DelayLine.ReadFromBuffer | Source/PluginProcessor.cpp:376-404 | `readFromBuffer` changes only channel `channel` of the band block, adding half of the delayed samples; the other channels keep their samples |
| DelayLine.ReadFromBufferAsWritten | Source/PluginProcessor.cpp:382-400 | the read with a real read position keeps the block's shape and leaves other channels alone; its content is given by the lemmas below |
| DelayLine.ReadAsWrittenAgreesOnWholeDelays | Source/PluginProcessor.cpp:382-400 | with a whole number of delay samples, the as-written read equals the contiguous circular read |
| DelayLine.FractionalDelayDropsSample | Source/PluginProcessor.cpp:396-400 | for `L = 4`, `n = 2`, `w = 0`, a delay of 1.5 samples and delay line `[0, 0, 2, 1]`, the as-written read turns `[0, 0]` into `[1, 0]`: the first sample hears index 2 and the second hears nothing |
| DelayLine.WholeDelayReadsContiguously | Source/PluginProcessor.cpp:390-400 | the contiguous read from the same start index 2 turns `[0, 0]` into `[1, 0.5]` |
| DelayLine.WrappedRead | Source/PluginProcessor.cpp:396-400 | the wrap branch with whole counts adds `0.5 × line[start + k]` to the first `tail` samples and `0.5 × line[k - tail]` to the next `head` samples, and leaves every later sample unchanged |
| DelayLine.WrapCounts | Source/PluginProcessor.cpp:396-399 | the three separately truncated values, start index, tail count and head count, never reach past the block or the delay buffer |
| DelayLine.FractionalSplitCounts | Source/PluginProcessor.cpp:396-399 | for a fractional read position the tail count is `L - 1 - floor(rp)` and the head count `n - L + floor(rp)`, one short of the block in total |
| DelayLine.FractionalWrapChannel | Source/PluginProcessor.cpp:390-400 | on one channel, a fractional read position that wraps gives the wrapped read with those counts |
| DelayLine.FractionalWrapSkipsOneSample | Source/PluginProcessor.cpp:382-400 | for every fractional delay whose read wraps, the tail stops at index `L - 2`, so index `L - 1` is never read; the head segment lands one sample early; the last block sample gets no delayed sample |
| DelayLine.WholeSplitCounts | Source/PluginProcessor.cpp:396-399 | for a whole read position the truncations are exact: tail `L - rp`, head `n - (L - rp)` |
| DelayLine.WholeReadChannel | Source/PluginProcessor.cpp:390-400 | on one channel, the as-written read from a whole read position is the contiguous circular read |
| DelayLine.AsWrittenStartIsWholeDelay | Source/PluginProcessor.cpp:382-388 | the truncated real read position is the read position of the delay rounded up to whole samples |
| DelayLine.AsWrittenNoWrapIsWholeDelay | Source/PluginProcessor.cpp:390-393 | when the as-written read does not wrap, it is the contiguous read with the delay rounded up to whole samples |
| BandMixer.ApplyGain | Source/PluginProcessor.cpp:299-305 | every sample is multiplied by the gain; channel count and lengths are kept |
| BandMixer.Clear | Source/PluginProcessor.cpp:273 | a buffer of the same shape holding only silence |
| BandMixer.AddFilterBand | Source/PluginProcessor.cpp:433-443 | each channel of the band is added sample by sample into the same channel of the output, over the output's length; the shape is kept |
| BandMixer.AddAll | Source/PluginProcessor.cpp:309-314 | adding the band buffers one after another adds, at each channel and sample, the sum over all bands |
| BandMixer.ScaledSumOfThree | Source/PluginProcessor.cpp:299-314 | adding three band buffers, each scaled by its own gain, contributes `Σ_b gain_b × band_b` at every channel and sample |
| BandMixer.Mix | Source/PluginProcessor.cpp:299-314 | each output sample is `Σ_b dryGain_b × dry_b + Σ_b wetGain_b × wet_b` at the same channel and index; the helper `ScaleEach` applies `ApplyGain` per band |
| TempoSync.ChangeDelayTime | Source/PluginProcessor.cpp:330-374 | the switch as written returns whole numbers between 0 and 4 |
| TempoSync.ChangeDelayTimeIsFloorOfFactor | Source/PluginProcessor.cpp:340-372 | each case returns the intended factor rounded down |
| TempoSync.ChangeDelayTimeDiffersExactly | Source/PluginProcessor.cpp:340-362 | the result differs from the intended factor exactly for indices 0, 1, 2 and 4, and is zero exactly for indices 0 to 2 |
| TempoSync.DivisionFactor | Source/PluginProcessor.cpp:330-372 | the intended factor is positive; for the choice labelled `1/q` (line 478) it times `q` is 4, so the note lasts `4/q` quarter notes; any other index gives the default quarter note |
| TempoSync.QuarterNoteDelay | Source/PluginProcessor.cpp:382 | `sampleRate × 60 / bpm` is positive, and fits the two-second delay buffer exactly when `bpm ≥ 30` |
| TempoSync.WholeDelay | Source/PluginProcessor.cpp:382-393 | a real delay `x` rounded up to the whole number `d` with `d - 1 < x ≤ d`; this is the whole delay the truncated read index reads from |
| TempoSync.QuarterNoteWholeDelayFits | Source/PluginProcessor.cpp:382 | with a whole `L = 2 × sampleRate` (line 136) and `bpm ≥ 30`, the quarter-note delay rounded up is between 1 and `L`, so it meets the `d ≤ w + L` that `ProcessBlock` requires |
| Engine.ClearUnusedOutputs | Source/PluginProcessor.cpp:209-210 | output channels at or above the input-channel count become silence of the same length; the other channels are kept. The result only feeds the crossover filters (line 224), which are not modelled, so `ProcessBlock` does not use it |
| Engine.EchoIsFillThenRead | Source/PluginProcessor.cpp:280-281 | the echo `EchoChannel` (block sample `k` plus half the line sample at `(w - d + k) mod L`) is `readFromBuffer` (`DelayLine.ReadDelayed`) applied to the line the first `fillBuffer` has just written the block into, so the read sees this block's own write |
| Engine.EchoFromHistory | Source/PluginProcessor.cpp:280-282 | when sample `k` reads behind the cursor (`k < d`) but not onto the block's own write (`d - k ≤ L - n`), it hears the line as it was before the block |
| Engine.EchoWithinBlock | Source/PluginProcessor.cpp:280-282 | with a delay shorter than the block, sample `k ≥ d` hears sample `k - d` of the same block |
| Engine.EchoWrapsIntoBlock | Source/PluginProcessor.cpp:280-282 | when `d - k > L - n` (and `d ≤ L`), the read of sample `k` lands on the block's own write: sample `k` hears sample `k - d + L` of its own block |
| Engine.FullDelayHearsItself | Source/PluginProcessor.cpp:280-282 | at `d = L` every sample hears itself: the wet band is 1.5 × the band |
| Engine.EchoAcrossBlocks | Source/PluginProcessor.cpp:280-327 | once block `a` is written at `w` (line 282) and the cursor has moved past it (326-327), sample `k` of the next block hears `0.5 ×` sample `|a| + k - d` of `a`, whenever `|b| ≤ d ≤ |a|` and both blocks fit in `L` |
| Engine.WrittenBehindCursor | Source/PluginProcessor.cpp:417-429 | `d` places behind the advanced cursor and `k` samples on, with `k < d ≤ n + k`, the delay line holds sample `n + k - d` of the block written before the cursor moved |
| Engine.EchoBand | Source/PluginProcessor.cpp:280-282 | fill, read, fill on one channel: the band channel becomes its echo, the delay-line channel holds that echo at the cursor, and nothing else changes |
| Engine.DelayBands | Source/PluginProcessor.cpp:278-284 | the band loop for one channel turns that channel of every band into its echo and writes the echo into that band's delay buffer; other channels stay untouched |
| Engine.DelayLoop | Source/PluginProcessor.cpp:275-290 | after the channel loop, every input channel of every band is its echo and every delay buffer holds it; non-input channels of bands and buffers are unchanged |
| Engine.DelayStage | Source/PluginProcessor.cpp:275-290 | the delay loop on the processor's own buffers yields the wet bands, and the input channels of each delay buffer hold the wet signal written at the cursor |
| Engine.ProcessBlock | Source/PluginProcessor.cpp:265-327 | one callback: the output is the gain-weighted sum of the dry snapshot and the wet bands; the next processor is `Stepped` from the old one, i.e. it is valid with the same shape, its delay buffers hold the wet signal at the old cursor on input channels and are unchanged elsewhere, and the cursor advances by the block length modulo `L` |
| Engine.NextBlockHearsPrevious | Source/PluginProcessor.cpp:265-327 | for two consecutive callbacks, each input channel of each wet band of the second block hears, `d` samples back, the wet signal the first block produced, whenever `n2 ≤ d ≤ n1` and `n1 + n2 ≤ L` |
| Engine.Run | Source/PluginProcessor.cpp:265-327 | over any run of blocks, `states[j]` is the processor block `j` meets. Each block fits its processor, its output is the gain-weighted sum of its dry bands and the wet bands heard off that processor, and `states[j + 1]` is what the block left behind (`Stepped`). So the delay buffers one block writes are the ones the next block reads. The final cursor is the starting cursor advanced by the total number of processed samples, modulo `L` |
| History.CursorAfter | Source/PluginProcessor.cpp:326-327 | over blocks `t` to `m - 1` of a run the cursor moves on by their total sample count `Span(t, m)`, modulo `L` |
| History.Keeps | Source/PluginProcessor.cpp:265-327 | no block after `t` overwrites the slot where block `t` put its sample `s`, on any channel, while the `Span(t, m) - s` samples written from there on do not go round the ring |
| History.Survives | Source/PluginProcessor.cpp:265-327 | at block `m`, the delay line of an input channel of block `t` still holds sample `s` of block `t`'s wet signal at `(w_t + s) mod L`, under the same condition |
| History.EchoHearsEarlierBlock | Source/PluginProcessor.cpp:265-327 | in any run, sample `k` of block `m` hears `0.5 ×` sample `Span(t, m) + k - d` of block `t`'s wet signal, the one written exactly `d` samples earlier, whenever that names a sample of block `t` and `d - k ≤ L - n_m`, however many blocks back `t` is |

## Left out

- The Linkwitz-Riley crossover filters (Source/PluginProcessor.cpp:49-55, 233-262) are JUCE filters with floating-point state. The three band blocks they produce are inputs of `Engine.ProcessBlock`. The all-pass `AP` gets a cutoff at line 235, but the filter run at line 256 is `AP2`. This does not affect the model.
- Floating-point rounding, `ScopedNoDenormals` and the internals of `applyGain`: samples and gains are exact reals.
- Tempo from `getPlayHead` (lines 212-217) is not modelled. The delay is a whole number of samples passed in, so `bpm > 0` is assumed rather than shown. `TempoSync.QuarterNoteDelay` states when the quarter-note delay fits the buffer. `TempoSync.QuarterNoteWholeDelayFits` shows that, rounded up to whole samples, it is a valid delay for `ProcessBlock`. `DelayLine.AsWrittenStartIsWholeDelay` shows that the source's truncated read index reads from that rounded-up delay.
- The `delayTime` choice parameter is never read, because line 251 is commented out. `ChangeDelayTime` is therefore modelled but not used by `Engine`.
- `prepareToPlay` sizing, bus layout, program and state methods, `createParameterLayout`, and the commented-out reverb are not modelled. `Engine.Valid` asks only that all three delay buffers share one positive length `L`. The `2 × sampleRate` value is not modelled.
- The plugin editor and the header file are not part of this model. The header's parameter map is stale and does not declare the members the processor uses, so `writePosition` is taken as an unbounded `int`. `bpm` is taken as a real, the type of the playhead's `info.bpm` it is assigned from at line 216. If it were declared as an integer, `60/bpm` at line 382 would also divide as integers.
- Engine.Run: requires `d ≤ L` for every block. This is stronger than the `d ≤ w + L` that one call of `ProcessBlock` needs, because the cursor is not known in advance.
- Engine.NextBlockHearsPrevious: covers a delay that reaches back into the immediately preceding block only (`n2 ≤ d ≤ n1`). A shorter delay is `Engine.EchoWithinBlock`. A delay reaching any number of blocks back is `History.EchoHearsEarlierBlock`.
- Engine.EchoWrapsIntoBlock: the delay-accuracy promise, that the band hears the signal of `d` samples ago, holds only for `d - k ≤ L - n`. The first `fillBuffer` (line 280) writes the block before `readFromBuffer` (line 281) reads, so a longer delay reads the block's own new samples instead of the history. At `d = L`, a quarter note at 30 bpm, the band hears 1.5 × its own current block (`Engine.FullDelayHearsItself`). `History.EchoHearsEarlierBlock` therefore requires `d - k ≤ L - n`.
- Engine.ProcessBlock: `buffer.clear()` happens at line 273, before the delay loop. In the model it happens inside `Mix`. Nothing reads the host buffer in between, so the output is the same.
- Engine.ProcessBlock: requires the input-channel count to be at most the output-channel count, and every band block to have the host buffer's shape. The source relies on the host and on the copies at line 224 for both.
- DelayLine.ReadFromBufferAsWritten: its contract states only shape and frame. Its content is given by lemmas: `ReadAsWrittenAgreesOnWholeDelays` for whole delays, `AsWrittenNoWrapIsWholeDelay` when the read does not wrap, and `FractionalWrapSkipsOneSample` when a fractional read wraps.
- Engine.ProcessBlock: requires the block length `n` to be at most `L` (`BlockFits`; `Cursor.PlanCopy` needs it too). For a longer block the source's copies would run past the delay buffer. At `L = 2 × sampleRate` no host block is that long.
- Cursor.Advance: the value is given without `mod` only for `w + n < 2L`. Beyond that it is `(w + n) mod L` by definition. `Cursor.AdvanceCompose` covers runs of blocks.
- Integer widths are not modelled. Buffer sizes and the cursor are assumed to stay far below the 32-bit range, as they do for two seconds of audio.

## Findings

| source | as written | input that shows it | evidently intended | confidence | as-written member | corrected member |
|---|---|---|---|---|---|---|
| Source/PluginProcessor.cpp:340-362 | `return 1 / 4;`, `1 / 2`, `4 / 6` and `4 / 3` are integer divisions, done before the conversion to `float` | index 0 (likewise 1 and 2) gives 0 instead of 0.25; index 4 gives 1 instead of 4/3 | each label `1/q` lasts `4/q` quarter notes: 0.25, 0.5, 2/3, 1, 4/3, 2, 4 | high, not executed | TempoSync.ChangeDelayTime, TempoSync.ChangeDelayTimeDiffersExactly | TempoSync.DivisionFactor, TempoSync.ChangeDelayTimeIsFloorOfFactor |
| Source/PluginProcessor.cpp:382-400 | the read position is a `double`. It is truncated separately as the start index, as the tail count `L - readPosition`, and as the head count | `L = 4`, block of 2, cursor 0, delay 1.5 samples: the tail copy covers 1 sample and the head copy 0, so block sample 1 gets no delayed sample. In general, every fractional delay whose read wraps skips delay index `L - 1` and drops the last block sample | one whole-sample read position, so the tail and head counts always sum to the block length | medium, not executed | DelayLine.ReadFromBufferAsWritten, DelayLine.FractionalWrapSkipsOneSample, DelayLine.FractionalDelayDropsSample | DelayLine.ReadFromBuffer, DelayLine.ReadAsWrittenAgreesOnWholeDelays, DelayLine.WholeDelayReadsContiguously |

=== FILE: band_mixer.dfy ===
/**
  The gain and summing stage at the end of a block: `applyGain` on the dry
  and wet band buffers, `clear` on the host buffer, and `addFilterBand`,
  which adds one band buffer sample by sample into every channel of the
  host buffer.
 */
module BandMixer {
  import opened Buffers

  /** Low, mid and high. */
  const NumBands: int := 3

  /** Every channel of `band` is at least as long as the matching channel of
      `out` (the source copies of the host buffer always are). */
  predicate Covers(band: Buffer<real>, out: Buffer<real>) {
    |out| <= |band| && forall c :: 0 <= c < |out| ==> |out[c]| <= |band[c]|
  }

  /** `applyGain`: scales every sample, keeping channel count and lengths. */
  function ApplyGain(b: Buffer<real>, gain: real): (r: Buffer<real>)
    ensures |r| == |b|
    ensures forall c :: 0 <= c < |r| ==> |r[c]| == |b[c]|
    ensures forall c, s :: 0 <= c < |r| && 0 <= s < |r[c]| ==> r[c][s] == gain * b[c][s]
  {
    seq(|b|, c requires 0 <= c < |b| => seq(|b[c]|, s requires 0 <= s < |b[c]| => gain * b[c][s]))
  }

  /** `clear`: silence of the same shape. */
  function Clear(b: Buffer<real>): (r: Buffer<real>)
    ensures |r| == |b|
    ensures forall c :: 0 <= c < |r| ==> |r[c]| == |b[c]|
    ensures forall c, s :: 0 <= c < |r| && 0 <= s < |r[c]| ==> r[c][s] == 0.0
  {
    ApplyGain(b, 0.0)
  }

  /** `addFilterBand`: channel `c` of `band` is added into channel `c` of
      `out` over the length of `out`; nothing changes shape. */
  function AddFilterBand(out: Buffer<real>, band: Buffer<real>): (r: Buffer<real>)
    requires Covers(band, out)
    ensures |r| == |out|
    ensures forall c :: 0 <= c < |r| ==> |r[c]| == |out[c]|
    ensures forall c, s :: 0 <= c < |r| && 0 <= s < |r[c]| ==> r[c][s] == out[c][s] + band[c][s]
  {
    seq(|out|, c requires 0 <= c < |out| =>
      seq(|out[c]|, s requires 0 <= s < |out[c]| => out[c][s] + band[c][s]))
  }

  /** Sample `s` of channel `c`, or silence where the buffer has none. */
  function SampleAt(b: Buffer<real>, c: int, s: int): real {
    if 0 <= c < |b| && 0 <= s < |b[c]| then b[c][s] else 0.0
  }

  /** The sum of sample `s` of channel `c` over a list of band buffers. */
  function SumAt(bands: seq<Buffer<real>>, c: int, s: int): real {
    if |bands| == 0 then 0.0 else SampleAt(bands[0], c, s) + SumAt(bands[1..], c, s)
  }

  /** The `for (auto& bandBuffer : ...) addFilterBand(buffer, bandBuffer)`
      loop: adding the bands one after another adds their sum. */
  function AddAll(out: Buffer<real>, bands: seq<Buffer<real>>): (r: Buffer<real>)
    requires forall b :: 0 <= b < |bands| ==> Covers(bands[b], out)
    ensures |r| == |out|
    ensures forall c :: 0 <= c < |r| ==> |r[c]| == |out[c]|
    ensures forall c, s :: 0 <= c < |r| && 0 <= s < |r[c]| ==> r[c][s] == out[c][s] + SumAt(bands, c, s)
    decreases |bands|
  {
    if |bands| == 0 then out
    else
      var next := AddFilterBand(out, bands[0]);
      assert forall b :: 0 <= b < |bands[1..]| ==> Covers(bands[1..][b], next) by {
        forall b | 0 <= b < |bands[1..]|
          ensures Covers(bands[1..][b], next)
        {
          assert Covers(bands[b + 1], out);
        }
      }
      AddAll(next, bands[1..])
  }

  /** Band buffers shaped like the host buffer: `numChannels` channels of
      `numSamples` samples each. */
  predicate AllShaped(bands: seq<Buffer<real>>, numChannels: nat, numSamples: nat) {
    forall b :: 0 <= b < |bands| ==> IsShaped(bands[b], numChannels, numSamples)
  }

  /** The three dry and three wet band buffers scaled by their own gains. */
  function ScaleEach(bands: seq<Buffer<real>>, gains: seq<real>): (r: seq<Buffer<real>>)
    requires |gains| == |bands|
    ensures |r| == |bands|
    ensures forall b :: 0 <= b < |r| ==> r[b] == ApplyGain(bands[b], gains[b])
  {
    seq(|bands|, b requires 0 <= b < |bands| => ApplyGain(bands[b], gains[b]))
  }

  /** `out` is, channel by channel and sample by sample, the gain-weighted
      sum of the three dry and the three wet band buffers. */
  predicate WeightedSum(out: Buffer<real>, dry: seq<Buffer<real>>, wet: seq<Buffer<real>>,
                        dryGains: seq<real>, wetGains: seq<real>, numChannels: nat, numSamples: nat) {
    && IsShaped(out, numChannels, numSamples)
    && |dry| == |wet| == |dryGains| == |wetGains| == NumBands
    && AllShaped(dry, numChannels, numSamples) && AllShaped(wet, numChannels, numSamples)
    && forall c, s {:trigger out[c][s]} :: 0 <= c < numChannels && 0 <= s < numSamples ==>
         out[c][s] == dryGains[0] * dry[0][c][s] + dryGains[1] * dry[1][c][s] + dryGains[2] * dry[2][c][s]
                    + wetGains[0] * wet[0][c][s] + wetGains[1] * wet[1][c][s] + wetGains[2] * wet[2][c][s]
  }

  /** Lines 299-314 of the block callback: scale the dry and wet band
      buffers, clear the host buffer, and add the six scaled buffers into it.
      Each output sample is the gain-weighted sum of the three dry and the
      three wet band samples at the same channel and index. */
  method Mix(buffer: Buffer<real>, dry: seq<Buffer<real>>, wet: seq<Buffer<real>>,
             dryGains: seq<real>, wetGains: seq<real>, numSamples: nat) returns (r: Buffer<real>)
    requires |dry| == |wet| == |dryGains| == |wetGains| == NumBands
    requires IsShaped(buffer, |buffer|, numSamples)
    requires AllShaped(dry, |buffer|, numSamples) && AllShaped(wet, |buffer|, numSamples)
    ensures WeightedSum(r, dry, wet, dryGains, wetGains, |buffer|, numSamples)
  {
    var scaledDry, scaledWet := ScaleEach(dry, dryGains), ScaleEach(wet, wetGains);
    var silent := Clear(buffer);
    var withDry := AddAll(silent, scaledDry);
    r := AddAll(withDry, scaledWet);
    forall c, s | 0 <= c < |r| && 0 <= s < numSamples
      ensures r[c][s] == dryGains[0] * dry[0][c][s] + dryGains[1] * dry[1][c][s] + dryGains[2] * dry[2][c][s]
             + wetGains[0] * wet[0][c][s] + wetGains[1] * wet[1][c][s] + wetGains[2] * wet[2][c][s]
    {
      ScaledSumOfThree(dry, dryGains, c, s);
      ScaledSumOfThree(wet, wetGains, c, s);
    }
  }

  lemma ScaledSumOfThree(bands: seq<Buffer<real>>, gains: seq<real>, c: int, s: int)
    requires |bands| == |gains| == NumBands
    requires 0 <= c < |bands[0]| && 0 <= c < |bands[1]| && 0 <= c < |bands[2]|
    requires 0 <= s < |bands[0][c]| && 0 <= s < |bands[1][c]| && 0 <= s < |bands[2][c]|
    ensures SumAt(ScaleEach(bands, gains), c, s)
         == gains[0] * bands[0][c][s] + gains[1] * bands[1][c][s] + gains[2] * bands[2][c][s]
  {
    var scaled := ScaleEach(bands, gains);
    assert scaled[1..][1..][1..] == [];
    assert SumAt(scaled[1..][1..][1..], c, s) == 0.0;
    assert SumAt(scaled[1..][1..], c, s) == SampleAt(scaled[1..][1..][0], c, s);
    assert SumAt(scaled[1..], c, s) == SampleAt(scaled[1..][0], c, s) + SumAt(scaled[1..][1..], c, s);
    assert SampleAt(scaled[0], c, s) == gains[0] * bands[0][c][s];
    assert SampleAt(scaled[1..][0], c, s) == gains[1] * bands[1][c][s];
    assert SampleAt(scaled[1..][1..][0], c, s) == gains[2] * bands[2][c][s];
  }
}

=== FILE: buffers.dfy ===
/**
  Audio buffers as the processor sees them: a buffer is a sequence of
  channels, each channel a sequence of samples. This module holds the shape
  predicate and the two primitive segment operations of the audio buffer
  class: `copyFrom` (overwrite a window of a channel) and
  `addFrom` / `addFromWithRamp` with equal start and end gain (add a scaled
  window of another channel).
 */
module Buffers {

  /** A buffer of `numChannels` channels, each holding `numSamples` samples. */
  type Buffer<T> = seq<seq<T>>

  predicate IsShaped<T>(b: Buffer<T>, numChannels: nat, numSamples: nat) {
    |b| == numChannels && forall c :: 0 <= c < |b| ==> |b[c]| == numSamples
  }

  /** Overwrites `dst[at .. at+count)` with `src[from .. from+count)`. */
  function CopySegment<T>(dst: seq<T>, at: nat, src: seq<T>, from: nat, count: nat): (r: seq<T>)
    requires at + count <= |dst| && from + count <= |src|
    ensures |r| == |dst|
    ensures forall j {:trigger r[j]} :: 0 <= j < |r| && at <= j < at + count ==> r[j] == src[from + j - at]
    ensures forall j {:trigger r[j]} :: 0 <= j < |r| && !(at <= j < at + count) ==> r[j] == dst[j]
  {
    dst[..at] + src[from..from + count] + dst[at + count..]
  }

  /** Adds `gain * src[from .. from+count)` into `dst[at .. at+count)`. */
  function AddSegment(dst: seq<real>, at: nat, src: seq<real>, from: nat, count: nat, gain: real): (r: seq<real>)
    requires at + count <= |dst| && from + count <= |src|
    ensures |r| == |dst|
    ensures forall j {:trigger r[j]} :: 0 <= j < |r| && at <= j < at + count ==> r[j] == dst[j] + gain * src[from + j - at]
    ensures forall j {:trigger r[j]} :: 0 <= j < |r| && !(at <= j < at + count) ==> r[j] == dst[j]
  {
    seq(|dst|, j requires 0 <= j < |dst| =>
      if at <= j < at + count then dst[j] + gain * src[from + j - at] else dst[j])
  }
}

=== FILE: cursor.dfy ===
/**
  Index arithmetic of the circular delay buffers: the split of one block
  copy into a tail segment (up to the end of the buffer) and a head segment
  (wrapped to the start), the normalisation of the read position, and the
  advance of the shared write cursor at the end of each block.
 */
module Cursor {

  /** The two segments of a circular copy: `tailCount` samples from the
      start position up to the end of the buffer, then `headCount` samples
      from index 0. */
  datatype Split = Split(tailCount: int, headCount: int)

  /** The branch shared by the writer and the reader: one contiguous copy
      when the block ends strictly before the end of the buffer, else a
      tail copy of `size - pos` samples and a head copy of the rest. */
  function PlanCopy(pos: int, n: int, size: int): (s: Split)
    requires 0 <= pos < size && 0 <= n <= size
    ensures 0 <= s.tailCount && 0 <= s.headCount
    ensures s.tailCount + s.headCount == n
    ensures pos + s.tailCount <= size
    ensures s.headCount > 0 ==> pos + s.tailCount == size
    ensures s.headCount <= pos
  {
    if size > n + pos then Split(n, 0)
    else Split(size - pos, n - (size - pos))
  }

  /** `x mod size` for a value at most one wrap away from the range. */
  lemma ModOnce(x: int, size: int)
    requires 0 < size && 0 <= x < 2 * size
    ensures x % size == if x < size then x else x - size
  {
  }

  /** Sample `k` of a split copy lands at circular position `(pos + k) mod size`:
      in the tail segment at `pos + k`, in the head segment at `k - tailCount`. */
  lemma {:induction false} PlanCopyPlacesModular(pos: int, n: int, size: int, k: int)
    requires 0 <= pos < size && 0 <= n <= size && 0 <= k < n
    ensures var s := PlanCopy(pos, n, size);
      (pos + k) % size == if k < s.tailCount then pos + k else k - s.tailCount
  {
    ModOnce(pos + k, size);
  }

  /** The read position `writePosition - delay`, corrected once by adding
      the buffer length when it is negative. It lands in `[0, size)`, and
      equals `(w - d) mod size`, exactly when the delay is at most
      `w + size`; otherwise it stays negative. */
  function ReadPosition(w: int, d: int, size: int): (r: int)
    requires 0 <= w < size && 0 <= d
    ensures d <= w + size ==> 0 <= r < size && r == (w - d) % size
    ensures d > w + size ==> r < 0
  {
    var rp := w - d;
    if rp < 0 then
      if rp + size >= 0 then ModUnique(rp, -1, rp + size, size); rp + size
      else rp + size
    else
      ModOnce(rp, size);
      rp
  }

  /** The cursor advance at the end of a block: `w + n` wrapped once modulo the
      buffer length. */
  function Advance(w: int, n: int, size: int): (w': int)
    requires 0 < size && 0 <= w && 0 <= n
    ensures 0 <= w' < size
    ensures w + n < size ==> w' == w + n
    ensures size <= w + n < 2 * size ==> w' == w + n - size
  {
    if w + n < 2 * size then ModOnce(w + n, size); (w + n) % size
    else (w + n) % size
  }

  /** Euclidean division is unique: a decomposition `x == q * size + r` with
      `0 <= r < size` fixes the remainder. */
  lemma ModUnique(x: int, q: int, r: int, size: int)
    requires 0 < size && x == q * size + r && 0 <= r < size
    ensures x % size == r
  {
    var k := q - x / size;
    assert k * size == q * size - (x / size) * size;
    NoMultipleInside(k, size);
  }

  /** The only multiple of `size` strictly between `-size` and `size` is 0. */
  lemma NoMultipleInside(k: int, size: int)
    requires 0 < size && -size < k * size < size
    ensures k == 0
  {
  }

  /** Reducing a summand modulo `size` first does not change the sum modulo `size`. */
  lemma ModAddMod(x: int, y: int, size: int)
    requires 0 < size
    ensures (x % size + y) % size == (x + y) % size
  {
    var q1, r1 := x / size, x % size;
    var q2, r2 := (r1 + y) / size, (r1 + y) % size;
    assert x + y == (q1 + q2) * size + r2;
    ModUnique(x + y, q1 + q2, r2, size);
  }

  /** Seen from the cursor `w`, the position `s` samples past it lies `s`
      samples ahead, for `s` short of once round the ring. */
  lemma AheadOffset(w: int, s: int, size: int)
    requires 0 <= w < size && 0 <= s < size
    ensures ((w + s) % size - w) % size == s
  {
    ModOnce(w + s, size);
    OffsetCases((w + s) % size, w, size);
  }

  /** Seen from the cursor advanced `S` samples past `w`, the position
      `s < S` samples past `w` lies `S - s` samples back, as long as that is
      no more than once round the ring. */
  lemma OffsetBehind(w: int, S: int, s: int, size: int)
    requires 0 <= w < size && 0 <= s < S && S - s <= size
    ensures ((w + s) % size - Advance(w, S, size)) % size == size + s - S
  {
    var x, q1, q2 := (w + s) % size, (w + s) / size, (w + S) / size;
    assert x - Advance(w, S, size) == (size + s - S) + (q2 - q1 - 1) * size;
    ModUnique(x - Advance(w, S, size), q2 - q1 - 1, size + s - S, size);
  }

  /** Moving the cursor on by `n` moves every ring offset back by `n`: an
      index `o` places after `w` lies `o - n` places after the advanced
      cursor, or `o - n + size` places when it was among the first `n`. */
  lemma ShiftOffset(x: int, w: int, n: int, size: int)
    requires 0 <= x < size && 0 <= w < size && 0 <= n <= size
    ensures 0 <= (x - w) % size < size
    ensures var o := (x - w) % size;
      (x - Advance(w, n, size)) % size == if o >= n then o - n else o - n + size
  {
    OffsetCases(x, w, size);
    OffsetCases(x, Advance(w, n, size), size);
  }

  /** The forward distance from `w` to `j` around a ring of `size` slots. */
  lemma OffsetCases(j: int, w: int, size: int)
    requires 0 <= j < size && 0 <= w < size
    ensures (j - w) % size == if j >= w then j - w else j - w + size
  {
    if j >= w {
      ModOnce(j - w, size);
    } else {
      ModUnique(j - w, -1, j - w + size, size);
    }
  }

  /** A position `d` places behind `w` and then `k` forward, with `k < d`,
      lies `size - (d - k)` places after `w` around the ring. */
  lemma BehindOffset(w: int, d: int, k: int, size: int)
    requires 0 <= w < size && 0 <= k < d <= size + k
    ensures ((w - d + k) % size - w) % size == k - d + size
  {
    ModAddMod(w - d + k, -w, size);
    ModUnique(k - d, -1, k - d + size, size);
  }

  /** Advancing by `a` then by `b` is advancing by `a + b`: the cursor after a
      run of blocks depends only on the total number of samples processed. */
  lemma {:induction false} AdvanceCompose(w: int, a: int, b: int, size: int)
    requires 0 < size && 0 <= w && 0 <= a && 0 <= b
    ensures Advance(Advance(w, a, size), b, size) == Advance(w, a + b, size)
  {
    ModAddMod(w + a, b, size);
  }

  /** Reading `d` places behind the advanced cursor, `k` samples into the
      next block, lands where sample `n + k - d` of the previous block was
      written. */
  lemma AdvanceBehind(w: int, n: int, d: int, k: int, size: int)
    requires 0 < size && 0 <= w && 0 <= n
    ensures (Advance(w, n, size) - d + k) % size == (w + (n + k - d)) % size
  {
    ModAddMod(w + n, k - d, size);
  }
}

=== FILE: delay_line.dfy ===
/**
  One band's circular delay line: `fillBuffer` writes a block at the write
  cursor, `readFromBuffer` adds the block found `d` samples behind the
  cursor into the band block at a fixed gain. Both split their copy into a
  tail and a head segment when it runs past the end of the delay buffer.
 */
module DelayLine {
  import opened Buffers
  import opened Cursor
  import opened TempoSync

  /** The constant gain with which delayed samples are added into the band. */
  const DelayGain: real := 0.5

  /** The two `copyFrom` calls of `fillBuffer`: the tail segment at `w`, then
      the head segment at index 0. */
  function SplitWrite<T>(line: seq<T>, block: seq<T>, w: int): (r: seq<T>)
    requires 0 <= w < |line| && |block| <= |line|
    ensures |r| == |line|
  {
    var s := PlanCopy(w, |block|, |line|);
    var tail := CopySegment(line, w, block, 0, s.tailCount);
    CopySegment(tail, 0, block, s.tailCount, s.headCount)
  }

  lemma SplitWriteAt<T>(line: seq<T>, block: seq<T>, w: int, j: int)
    requires 0 <= w < |line| && |block| <= |line| && 0 <= j < |line|
    ensures SplitWrite(line, block, w)[j] ==
      if (j - w) % |line| < |block| then block[(j - w) % |line|] else line[j]
  {
    OffsetCases(j, w, |line|);
  }

  /** Writes `block` into the circular channel `line` starting at `w`.
      Index `j` of the line is covered by the write exactly when it lies fewer
      than `|block|` places after `w` around the ring. */
  function FillChannel<T>(line: seq<T>, block: seq<T>, w: int): (r: seq<T>)
    requires 0 <= w < |line| && |block| <= |line|
    ensures |r| == |line|
    ensures forall j {:trigger r[j]} :: 0 <= j < |line| ==>
      r[j] == if (j - w) % |line| < |block| then block[(j - w) % |line|] else line[j]
  {
    seq(|line|, j requires 0 <= j < |line| =>
      if (j - w) % |line| < |block| then block[(j - w) % |line|] else line[j])
  }

  /** The two copies of `fillBuffer` write exactly `FillChannel`. */
  lemma SplitWriteIsFill<T>(line: seq<T>, block: seq<T>, w: int)
    requires 0 <= w < |line| && |block| <= |line|
    ensures SplitWrite(line, block, w) == FillChannel(line, block, w)
  {
    var split, fill := SplitWrite(line, block, w), FillChannel(line, block, w);
    forall j | 0 <= j < |line|
      ensures split[j] == fill[j]
    {
      SplitWriteAt(line, block, w, j);
    }
  }

  /** Sample `k` of the block lands at `(w + k) mod size`. */
  lemma FillChannelPlaces<T>(line: seq<T>, block: seq<T>, w: int, k: int)
    requires 0 <= w < |line| && |block| <= |line| && 0 <= k < |block|
    ensures FillChannel(line, block, w)[(w + k) % |line|] == block[k]
  {
    AheadOffset(w, k, |line|);
  }

  /** A write determines the block it wrote: two blocks of one length written
      at the same cursor into the same line agree wherever the lines do. */
  lemma FillInjective<T>(line: seq<T>, a: seq<T>, b: seq<T>, w: int, k: int)
    requires 0 <= w < |line| && |a| == |b| <= |line| && 0 <= k < |a|
    requires FillChannel(line, a, w) == FillChannel(line, b, w)
    ensures a[k] == b[k]
  {
    FillChannelPlaces(line, a, w, k);
    FillChannelPlaces(line, b, w, k);
  }

  /** `fillBuffer`: copies channel `channel` of the band block into the same
      channel of the delay buffer at write position `w`; every other channel
      is left as it was. */
  function FillBuffer<T>(band: Buffer<T>, delay: Buffer<T>, channel: int, w: int): (r: Buffer<T>)
    requires 0 <= channel < |band| && channel < |delay|
    requires 0 <= w < |delay[channel]| && |band[channel]| <= |delay[channel]|
    ensures |r| == |delay|
    ensures forall c :: 0 <= c < |r| && c != channel ==> r[c] == delay[c]
    ensures r[channel] == FillChannel(delay[channel], band[channel], w)
  {
    SplitWriteIsFill(delay[channel], band[channel], w);
    delay[channel := SplitWrite(delay[channel], band[channel], w)]
  }

  /** Adds `DelayGain` times the `|block|` samples of the circular channel
      `line` that start at `r` into `block`. */
  function ReadChannel(block: seq<real>, line: seq<real>, r: int): (out: seq<real>)
    requires 0 <= r < |line| && |block| <= |line|
    ensures |out| == |block|
    ensures forall k {:trigger out[k]} :: 0 <= k < |block| ==> out[k] == block[k] + DelayGain * line[(r + k) % |line|]
  {
    var size, n := |line|, |block|;
    var s := PlanCopy(r, n, size);
    var first := AddSegment(block, 0, line, r, s.tailCount, DelayGain);
    var out := AddSegment(first, s.tailCount, line, 0, s.headCount, DelayGain);
    assert forall k :: 0 <= k < n ==> out[k] == block[k] + DelayGain * line[(r + k) % size] by {
      forall k | 0 <= k < n
        ensures out[k] == block[k] + DelayGain * line[(r + k) % size]
      {
        PlanCopyPlacesModular(r, n, size, k);
      }
    }
    out
  }

  /** Adds into `block` the `|block|` samples of the circular channel `line`
      that start `d` places behind the write position `w`, using the read
      position with its single `+ size` correction. */
  function ReadDelayed(block: seq<real>, line: seq<real>, w: int, d: int): (out: seq<real>)
    requires 0 <= w < |line| && |block| <= |line| && 0 <= d <= w + |line|
    ensures |out| == |block|
    ensures forall k {:trigger out[k]} :: 0 <= k < |block| ==> out[k] == block[k] + DelayGain * line[(w - d + k) % |line|]
  {
    var size := |line|;
    var rp := ReadPosition(w, d, size);
    var out := ReadChannel(block, line, rp);
    assert forall k :: 0 <= k < |block| ==>
      out[k] == block[k] + DelayGain * line[(w - d + k) % size] by {
      forall k | 0 <= k < |block|
        ensures out[k] == block[k] + DelayGain * line[(w - d + k) % size]
      {
        ModAddMod(w - d, k, size);
      }
    }
    out
  }

  /** `readFromBuffer` with a delay of `d` whole samples: channel `channel` of
      the band block receives `DelayGain` times the delay-buffer samples that
      lie `d` places behind the write position; the other channels and the
      delay buffer are untouched. The single `+ size` correction of the read
      position is enough exactly when `d <= w + size`. */
  function ReadFromBuffer(band: Buffer<real>, delay: Buffer<real>, channel: int, w: int, d: int): (r: Buffer<real>)
    requires 0 <= channel < |band| && channel < |delay|
    requires 0 <= w < |delay[channel]| && |band[channel]| <= |delay[channel]|
    requires 0 <= d <= w + |delay[channel]|
    ensures |r| == |band|
    ensures forall c :: 0 <= c < |r| && c != channel ==> r[c] == band[c]
    ensures |r[channel]| == |band[channel]|
    ensures forall k {:trigger r[channel][k]} :: 0 <= k < |band[channel]| ==>
      r[channel][k] == band[channel][k] + DelayGain * delay[channel][(w - d + k) % |delay[channel]|]
  {
    band[channel := ReadDelayed(band[channel], delay[channel], w, d)]
  }

  /** The real read position of `readFromBuffer` as written: `w` minus the
      real delay, with the single `+ size` correction when negative. */
  function AsWrittenReadPosition(w: int, delaySamples: real, size: int): (rp: real)
    requires 0 <= w < size && 0.0 <= delaySamples <= (w + size) as real
    ensures 0.0 <= rp < size as real
    ensures rp == if w as real < delaySamples then (w + size) as real - delaySamples else w as real - delaySamples
  {
    var rp0 := w as real - delaySamples;
    if rp0 < 0.0 then rp0 + size as real else rp0
  }

  /** `readFromBuffer` as written, for the delay the processor actually
      computes: `sampleRate * (60 / bpm)` is a real number of samples, the read
      position stays real, and every place it is used as a sample index or a
      sample count it is truncated toward zero (here always the floor, since
      those values are non-negative). */
  function ReadFromBufferAsWritten(band: Buffer<real>, delay: Buffer<real>, channel: int, w: int, delaySamples: real): (r: Buffer<real>)
    requires 0 <= channel < |band| && channel < |delay|
    requires 0 <= w < |delay[channel]| && |band[channel]| <= |delay[channel]|
    requires 0.0 <= delaySamples <= (w + |delay[channel]|) as real
    ensures |r| == |band|
    ensures forall c :: 0 <= c < |r| && c != channel ==> r[c] == band[c]
    ensures |r[channel]| == |band[channel]|
  {
    var rp := AsWrittenReadPosition(w, delaySamples, |delay[channel]|);
    band[channel := ReadChannelAsWritten(band[channel], delay[channel], rp)]
  }

  /** The two `addFromWithRamp` calls of `readFromBuffer` at a real read
      position `rp`: the start index and both segment counts are each
      truncated on their own. */
  function ReadChannelAsWritten(block: seq<real>, line: seq<real>, rp: real): (out: seq<real>)
    requires 0.0 <= rp < |line| as real && |block| <= |line|
    ensures |out| == |block|
  {
    var size, n := |line|, |block|;
    if rp + n as real < size as real then
      AddSegment(block, 0, line, rp.Floor, n, DelayGain)
    else
      var c := WrapCounts(rp, size, n);
      WrappedRead(block, line, c.0, c.1, c.2)
  }

  /** The start index, tail count and head count of the wrap branch of
      `readFromBuffer`, each truncated on its own: `rp`, `size - rp` and
      `n - (size - rp)`. Together they never reach past the block or the
      delay buffer. */
  function WrapCounts(rp: real, size: int, n: int): (c: (nat, nat, nat))
    requires 0.0 <= rp < size as real && 0 <= n <= size && rp + n as real >= size as real
    ensures c.1 + c.2 <= n && c.0 + c.1 <= size && c.2 <= size
  {
    var toEnd := size as real - rp;
    (rp.Floor, toEnd.Floor, (n as real - toEnd).Floor)
  }

  /** The wrap branch of `readFromBuffer` once its start index and counts
      are whole numbers: `tailCount` samples from `start` into the front of
      the block, then `headCount` samples from index 0 right after them. */
  function WrappedRead(block: seq<real>, line: seq<real>, start: nat, tailCount: nat, headCount: nat): (out: seq<real>)
    requires tailCount + headCount <= |block| && start + tailCount <= |line| && headCount <= |line|
    ensures |out| == |block|
    ensures forall k {:trigger out[k]} :: 0 <= k < tailCount ==> out[k] == block[k] + DelayGain * line[start + k]
    ensures forall k {:trigger out[k]} :: tailCount <= k < tailCount + headCount ==>
      out[k] == block[k] + DelayGain * line[k - tailCount]
    ensures forall k {:trigger out[k]} :: tailCount + headCount <= k < |block| ==> out[k] == block[k]
  {
    var first := AddSegment(block, 0, line, start, tailCount, DelayGain);
    AddSegment(first, tailCount, line, 0, headCount, DelayGain)
  }

  /** For a whole number of delay samples the truncations are exact and the
      as-written read is the contiguous circular read. */
  lemma {:induction false} ReadAsWrittenAgreesOnWholeDelays(band: Buffer<real>, delay: Buffer<real>, channel: int, w: int, d: int)
    requires 0 <= channel < |band| && channel < |delay|
    requires 0 <= w < |delay[channel]| && |band[channel]| <= |delay[channel]|
    requires 0 <= d <= w + |delay[channel]|
    ensures ReadFromBufferAsWritten(band, delay, channel, w, d as real) == ReadFromBuffer(band, delay, channel, w, d)
  {
    var size := |delay[channel]|;
    var rp := ReadPosition(w, d, size);
    assert AsWrittenReadPosition(w, d as real, size) == rp as real;
    WholeReadChannel(band[channel], delay[channel], rp);
    assert ReadChannel(band[channel], delay[channel], rp) == ReadDelayed(band[channel], delay[channel], w, d);
  }

  /** On one channel: from a whole read position, the as-written read is the
      contiguous circular read. */
  lemma {:induction false} WholeReadChannel(block: seq<real>, line: seq<real>, rp: int)
    requires 0 <= rp < |line| && |block| <= |line|
    ensures ReadChannelAsWritten(block, line, rp as real) == ReadChannel(block, line, rp)
  {
    var size, n := |line|, |block|;
    var asWritten, intended := ReadChannelAsWritten(block, line, rp as real), ReadChannel(block, line, rp);
    var s := PlanCopy(rp, n, size);
    if rp + n >= size {
      WholeSplitCounts(rp, size, n);
      var c := WrapCounts(rp as real, size, n);
      assert c.0 == rp && c.1 == s.tailCount && c.2 == s.headCount;
      assert asWritten == WrappedRead(block, line, c.0, c.1, c.2);
    }
    forall k | 0 <= k < n
      ensures asWritten[k] == intended[k]
    {
      PlanCopyPlacesModular(rp, n, size, k);
    }
  }

  /** From a whole read position the truncations are exact: the wrap
      branch copies `size - rp` samples and then the rest. */
  lemma WholeSplitCounts(rp: int, size: int, n: int)
    requires 0 <= rp < size && 0 <= n <= size && rp + n >= size
    ensures WrapCounts(rp as real, size, n) == (rp, size - rp, n - size + rp)
  {
    assert ((size - rp) as real).Floor == size - rp;
    assert (n as real - (size - rp) as real) == (n - size + rp) as real;
  }


  /** With a fractional delay the wrap branch goes wrong. Delay buffer of 4
      samples, block of 2, cursor 0, delay 1.5 samples: the read position is
      2.5, the tail copy is truncated to one sample and the head copy to none,
      so the first sample hears delay-buffer index 2 and the second sample
      receives no delayed sample at all. */
  lemma FractionalDelayDropsSample()
    ensures ReadFromBufferAsWritten([[0.0, 0.0]], [[0.0, 0.0, 2.0, 1.0]], 0, 0, 1.5) == [[1.0, 0.0]]
  {
    var block, line := [0.0, 0.0], [0.0, 0.0, 2.0, 1.0];
    assert (2.5).Floor == 2 && (1.5).Floor == 1 && (0.5).Floor == 0;
    var first := AddSegment(block, 0, line, 2, 1, DelayGain);
    var out := AddSegment(first, 1, line, 0, 0, DelayGain);
    assert first == [1.0, 0.0];
    assert out == [1.0, 0.0];
  }

  /** The contiguous read from the same start index 2 adds half of the
      delay-buffer samples at indices 2 and 3 into the two block samples. */
  lemma WholeDelayReadsContiguously()
    ensures ReadFromBuffer([[0.0, 0.0]], [[0.0, 0.0, 2.0, 1.0]], 0, 0, 2) == [[1.0, 0.5]]
  {
    var r := ReadFromBuffer([[0.0, 0.0]], [[0.0, 0.0, 2.0, 1.0]], 0, 0, 2);
    assert (0 - 2 + 1) % 4 == 3 && (0 - 2 + 0) % 4 == 2;
    assert r[0] == [1.0, 0.5];
  }

  /** Truncating the two segment counts of a fractional read position:
      the tail stops one sample short of the end of the delay buffer, and
      together the two counts come to one sample short of the block. */
  lemma FractionalSplitCounts(rp: real, size: int, n: int)
    requires 0.0 <= rp < size as real && 0 <= n <= size && rp + n as real >= size as real
    requires rp.Floor as real != rp
    ensures WrapCounts(rp, size, n) == (rp.Floor, size - 1 - rp.Floor, n - size + rp.Floor)
  {
    var fl := rp.Floor;
    assert fl as real < rp < fl as real + 1.0;
    assert (size - 1 - fl) as real <= size as real - rp < (size - fl) as real;
    assert (n - size + fl) as real <= n as real - (size as real - rp) < (n - size + fl + 1) as real;
  }

  /** In general: whenever the real delay is fractional and the read wraps,
      the as-written read is a wrapped read whose tail stops one sample
      before the end of the delay buffer (index `size - 1` is never read),
      whose head lands one sample early, and whose two counts together leave
      the last block sample without any delayed sample. */
  lemma {:induction false} FractionalWrapSkipsOneSample(band: Buffer<real>, delay: Buffer<real>, channel: int, w: int, delaySamples: real)
    requires 0 <= channel < |band| && channel < |delay|
    requires 0 <= w < |delay[channel]| && |band[channel]| <= |delay[channel]|
    requires 0.0 <= delaySamples <= (w + |delay[channel]|) as real
    requires delaySamples.Floor as real != delaySamples
    requires AsWrittenReadPosition(w, delaySamples, |delay[channel]|) + |band[channel]| as real >= |delay[channel]| as real
    ensures
      var size, n := |delay[channel]|, |band[channel]|;
      var start := AsWrittenReadPosition(w, delaySamples, size).Floor;
      var tail := size - 1 - start;
      && 0 <= tail < n && start + tail == size - 1
      && ReadFromBufferAsWritten(band, delay, channel, w, delaySamples)[channel]
         == WrappedRead(band[channel], delay[channel], start, tail, n - 1 - tail)
  {
    var size := |delay[channel]|;
    var rp := AsWrittenReadPosition(w, delaySamples, size);
    var shift := if w as real < delaySamples then w + size else w;
    FractionalShift(shift, delaySamples);
    FractionalWrapChannel(band[channel], delay[channel], rp);
  }

  /** The same on one channel, for any fractional read position that wraps. */
  lemma {:induction false} FractionalWrapChannel(block: seq<real>, line: seq<real>, rp: real)
    requires 0.0 <= rp < |line| as real && |block| <= |line|
    requires rp.Floor as real != rp && rp + |block| as real >= |line| as real
    ensures 0 <= |line| - 1 - rp.Floor < |block|
    ensures ReadChannelAsWritten(block, line, rp)
         == WrappedRead(block, line, rp.Floor, |line| - 1 - rp.Floor, |block| - |line| + rp.Floor)
  {
    FractionalSplitCounts(rp, |line|, |block|);
    var c := WrapCounts(rp, |line|, |block|);
    assert c.0 == rp.Floor && c.1 == |line| - 1 - rp.Floor && c.2 == |block| - |line| + rp.Floor;
    assert ReadChannelAsWritten(block, line, rp) == WrappedRead(block, line, c.0, c.1, c.2);
  }

  /** A whole number minus a fractional one is fractional. */
  lemma FractionalShift(shift: int, x: real)
    requires x.Floor as real != x
    ensures (shift as real - x).Floor as real != shift as real - x
  {
    var fx := x.Floor;
    assert fx as real < x < fx as real + 1.0;
    var y := shift as real - x;
    assert (shift - fx - 1) as real < y < (shift - fx) as real;
    assert y.Floor == shift - fx - 1;
  }

  /** Writing the same window twice keeps only the second write. */
  lemma {:induction false} FillTwiceKeepsSecond<T>(line: seq<T>, a: seq<T>, b: seq<T>, w: int)
    requires 0 <= w < |line| && |a| == |b| <= |line|
    ensures FillChannel(FillChannel(line, a, w), b, w) == FillChannel(line, b, w)
  {
    var once := FillChannel(line, a, w);
    var lhs, rhs := FillChannel(once, b, w), FillChannel(line, b, w);
    assert forall j :: 0 <= j < |line| ==> lhs[j] == rhs[j] by {
      forall j | 0 <= j < |line|
        ensures lhs[j] == rhs[j]
      {
        if (j - w) % |line| >= |b| {
          assert lhs[j] == once[j] == line[j];
        }
      }
    }
  }

  /** A block written right after another does not disturb it while the two
      fit in the line together: the earlier block can still be read back at
      its own positions. */
  lemma {:induction false} NextFillPreservesHistory<T>(line: seq<T>, a: seq<T>, b: seq<T>, w: int, k: int)
    requires 0 <= w < |line| && |a| + |b| <= |line| && 0 <= k < |a|
    ensures
      var w2 := Advance(w, |a|, |line|);
      FillChannel(FillChannel(line, a, w), b, w2)[(w + k) % |line|] == a[k]
  {
    var size := |line|;
    var w2 := Advance(w, |a|, size);
    var p := (w + k) % size;
    var q1, q2 := (w + k) / size, (w + |a|) / size;
    assert p - w2 == (k - |a| + size) + (q2 - q1 - 1) * size;
    ModUnique(p - w2, q2 - q1 - 1, k - |a| + size, size);
    FillChannelPlaces(line, a, w, k);
  }

  /** Writing block `a` at `w` and then block `b` at the advanced cursor is
      writing `a + b` at `w` in one go, as long as the two fit in the line:
      consecutive blocks lie end to end around the ring. */
  lemma {:induction false} FillConsecutive<T>(line: seq<T>, a: seq<T>, b: seq<T>, w: int)
    requires 0 <= w < |line| && |a| + |b| <= |line|
    ensures FillChannel(FillChannel(line, a, w), b, Advance(w, |a|, |line|)) == FillChannel(line, a + b, w)
  {
    var lhs := FillChannel(FillChannel(line, a, w), b, Advance(w, |a|, |line|));
    var rhs := FillChannel(line, a + b, w);
    forall x | 0 <= x < |line|
      ensures lhs[x] == rhs[x]
    {
      FillConsecutiveAt(line, a, b, w, x);
    }
  }

  /** `FillConsecutive` at one index of the line. */
  lemma FillConsecutiveAt<T>(line: seq<T>, a: seq<T>, b: seq<T>, w: int, x: int)
    requires 0 <= w < |line| && |a| + |b| <= |line| && 0 <= x < |line|
    ensures FillChannel(FillChannel(line, a, w), b, Advance(w, |a|, |line|))[x] == FillChannel(line, a + b, w)[x]
  {
    var size, next := |line|, Advance(w, |a|, |line|);
    ShiftOffset(x, w, |a|, size);
    FillConsecutiveOffsets(line, a, b, w, x, next, (x - w) % size, (x - next) % size);
  }

  /** `FillConsecutiveAt` once the ring offsets `o` of `x` from the first
      cursor and `o2` from the second are known to differ by `|a|`. */
  lemma FillConsecutiveOffsets<T>(line: seq<T>, a: seq<T>, b: seq<T>, w: int, x: int, next: int, o: int, o2: int)
    requires 0 <= w < |line| && |a| + |b| <= |line| && 0 <= x < |line| && 0 <= next < |line|
    requires o == (x - w) % |line| && o2 == (x - next) % |line|
    requires 0 <= o < |line| && o2 == if o >= |a| then o - |a| else o - |a| + |line|
    ensures FillChannel(FillChannel(line, a, w), b, next)[x] == FillChannel(line, a + b, w)[x]
  {
    var once := FillChannel(line, a, w);
    assert FillChannel(once, b, next)[x] == if o2 < |b| then b[o2] else once[x];
    assert once[x] == if o < |a| then a[o] else line[x];
    assert FillChannel(line, a + b, w)[x] == if o < |a| + |b| then (a + b)[o] else line[x];
    ConsecutiveSample(a, b, line[x], o, o2, |line|);
  }

  /** The case split behind `FillConsecutiveAt`, on ring offsets alone: an
      index `o` places after the first cursor and `o2` after the second sees
      `b`, then `a`, then `prior`, exactly as it sees `a + b`. */
  lemma ConsecutiveSample<T>(a: seq<T>, b: seq<T>, prior: T, o: int, o2: int, size: int)
    requires |a| + |b| <= size && 0 <= o < size
    requires o2 == if o >= |a| then o - |a| else o - |a| + size
    ensures (if o2 < |b| then b[o2] else if o < |a| then a[o] else prior)
         == (if o < |a| + |b| then (a + b)[o] else prior)
  {
  }

  /** The start index of the as-written read, the real read position
      truncated, is the read position of the whole delay `WholeDelay(x)`. */
  lemma AsWrittenStartIsWholeDelay(w: int, x: real, size: int)
    requires 0 <= w < size && 0.0 <= x <= (w + size) as real
    ensures 0 <= WholeDelay(x) <= w + size
    ensures AsWrittenReadPosition(w, x, size).Floor == ReadPosition(w, WholeDelay(x), size)
  {
    var c := WholeDelay(x);
    if w as real < x {
      assert w < c;
      assert ((w + size) as real - x).Floor == w + size - c;
    } else {
      assert c <= w;
      assert (w as real - x).Floor == w - c;
    }
  }

  /** When the as-written read does not wrap, it is the read with the whole
      delay `WholeDelay(x)`: the fractional part of the delay is dropped. */
  lemma {:induction false} AsWrittenNoWrapIsWholeDelay(band: Buffer<real>, delay: Buffer<real>, channel: int, w: int, x: real)
    requires 0 <= channel < |band| && channel < |delay|
    requires 0 <= w < |delay[channel]| && |band[channel]| <= |delay[channel]|
    requires 0.0 <= x <= (w + |delay[channel]|) as real
    requires AsWrittenReadPosition(w, x, |delay[channel]|) + |band[channel]| as real < |delay[channel]| as real
    ensures 0 <= WholeDelay(x) <= w + |delay[channel]|
    ensures ReadFromBufferAsWritten(band, delay, channel, w, x) == ReadFromBuffer(band, delay, channel, w, WholeDelay(x))
  {
    var size, block, line := |delay[channel]|, band[channel], delay[channel];
    var rp := AsWrittenReadPosition(w, x, size);
    AsWrittenStartIsWholeDelay(w, x, size);
    var start := rp.Floor;
    assert start as real <= rp;
    assert ReadChannelAsWritten(block, line, rp) == ReadChannelAsWritten(block, line, start as real);
    WholeReadChannel(block, line, start);
    assert ReadChannel(block, line, start) == ReadDelayed(block, line, w, WholeDelay(x));
  }
}

=== FILE: engine.dfy ===
/**
  The buffer, delay, mix and cursor part of the block callback
  (`processBlock`). The crossover filters are not modelled: the three band
  blocks they produce are inputs of `ProcessBlock`.

  Per block: the band blocks are snapshotted as the dry signal; for every
  input channel and every band, the delay line runs fill, read, fill; the
  dry and wet band blocks are scaled by their gains and summed into the
  cleared host buffer; the shared write cursor advances by the block length
  modulo the delay-buffer length.
 */
module Engine {
  import opened Buffers
  import opened Cursor
  import opened DelayLine
  import opened BandMixer

  /** The state that persists between blocks: one delay buffer per band, each
      `numChannels` channels of `delayLength` samples (two seconds of audio),
      and the one write cursor all three bands share. */
  datatype Processor = Processor(delayBuffers: seq<Buffer<real>>, writePosition: int,
                                 numChannels: nat, delayLength: nat)

  /** All three delay buffers have the same shape, so the single cursor,
      kept inside `[0, delayLength)`, is a valid position in every band. */
  predicate Valid(p: Processor) {
    && p.delayLength > 0
    && |p.delayBuffers| == NumBands
    && (forall i :: 0 <= i < NumBands ==> IsShaped(p.delayBuffers[i], p.numChannels, p.delayLength))
    && 0 <= p.writePosition < p.delayLength
  }

  /** Per-block parameters read by the callback: dry and wet gain per band
      and the delay in whole samples. */
  datatype Params = Params(dryGains: seq<real>, wetGains: seq<real>, delay: int)

  /** Lines 209-210: output channels the input does not feed are silenced
      before the host buffer is handed to the crossover filters. */
  function ClearUnusedOutputs(buffer: Buffer<real>, numInputChannels: int): (r: Buffer<real>)
    ensures |r| == |buffer|
    ensures forall c :: 0 <= c < |r| ==> |r[c]| == |buffer[c]|
    ensures forall c :: 0 <= c < |r| && c < numInputChannels ==> r[c] == buffer[c]
    ensures forall c, s :: 0 <= c < |r| && numInputChannels <= c && 0 <= s < |r[c]| ==> r[c][s] == 0.0
  {
    seq(|buffer|, c requires 0 <= c < |buffer| =>
      if c < numInputChannels then buffer[c] else seq(|buffer[c]|, s => 0.0))
  }

  /** What one channel of one band carries after the fill, read, fill
      sequence: its own samples plus `DelayGain` times the delay line read
      `d` samples behind the cursor, the line already holding this block. */
  function EchoChannel(block: seq<real>, line: seq<real>, w: int, d: int): (r: seq<real>)
    requires 0 <= w < |line| && |block| <= |line| && 0 <= d <= w + |line|
    ensures |r| == |block|
    ensures forall k {:trigger r[k]} :: 0 <= k < |block| ==>
      r[k] == block[k] + DelayGain * FillChannel(line, block, w)[(w - d + k) % |line|]
  {
    seq(|block|, k requires 0 <= k < |block| => block[k] + DelayGain * FillChannel(line, block, w)[(w - d + k) % |line|])
  }

  /** `EchoChannel` is `readFromBuffer` off the line that `fillBuffer` has
      just written the block into. */
  lemma EchoIsFillThenRead(block: seq<real>, line: seq<real>, w: int, d: int)
    requires 0 <= w < |line| && |block| <= |line| && 0 <= d <= w + |line|
    ensures EchoChannel(block, line, w, d) == ReadDelayed(block, FillChannel(line, block, w), w, d)
  {
  }

  /** When sample `k`'s read lands behind the cursor (`k < d`) but not so far
      behind that this block's own write has wrapped round onto it
      (`d - k <= size - n`), the band hears the delay line as it was before
      this block. */
  lemma EchoFromHistory(block: seq<real>, line: seq<real>, w: int, d: int, k: int)
    requires 0 <= w < |line| && 0 <= k < |block| && k < d && d - k + |block| <= |line|
    ensures EchoChannel(block, line, w, d)[k] == block[k] + DelayGain * line[(w - d + k) % |line|]
  {
    BehindOffset(w, d, k, |line|);
  }

  /** When the delay is shorter than the block, the later samples of the
      block echo its own earlier samples: sample `k` hears sample `k - d`. */
  lemma EchoWithinBlock(block: seq<real>, line: seq<real>, w: int, d: int, k: int)
    requires 0 <= w < |line| && |block| <= |line| && 0 <= d <= k < |block|
    ensures EchoChannel(block, line, w, d)[k] == block[k] + DelayGain * block[k - d]
  {
    var heard := (w - d + k) % |line|;
    assert heard == (w + (k - d)) % |line|;
    FillChannelPlaces(line, block, w, k - d);
    assert FillChannel(line, block, w)[heard] == block[k - d];
  }

  /** When the delay reaches back further than the line minus this block
      (`d - k > size - n`), the read of sample `k` lands on this block's own
      samples, written by the first `fillBuffer` just before the read: sample
      `k` hears sample `k - d + size` of its own block. At `d == size` every
      sample hears itself, at one and a half times its level. */
  lemma EchoWrapsIntoBlock(block: seq<real>, line: seq<real>, w: int, d: int, k: int)
    requires 0 <= w < |line| && |block| <= |line| && 0 <= k < |block| && |line| - |block| < d - k && d <= |line|
    ensures EchoChannel(block, line, w, d)[k] == block[k] + DelayGain * block[k - d + |line|]
  {
    var heard := (w - d + k) % |line|;
    ModUnique(w - d + k + |line|, (w - d + k) / |line| + 1, heard, |line|);
    FillChannelPlaces(line, block, w, k - d + |line|);
    assert FillChannel(line, block, w)[heard] == block[k - d + |line|];
  }

  /** The longest delay, `d == size` (a quarter note at 30 bpm fills the
      two-second buffer), reads back exactly the samples the first
      `fillBuffer` has just written: the band hears itself instead of the
      block `size` samples before it, at one and a half times its level. */
  lemma FullDelayHearsItself(block: seq<real>, line: seq<real>, w: int, k: int)
    requires 0 <= w < |line| && |block| <= |line| && 0 <= k < |block|
    ensures EchoChannel(block, line, w, |line|)[k] == 1.5 * block[k]
  {
    EchoWrapsIntoBlock(block, line, w, |line|, k);
  }

  /** Across two blocks: once block `a` has been written at `w` and the
      cursor has moved past it, sample `k` of the next block `b` hears sample
      `|a| + k - d` of `a`, as long as the delay reaches back into `a` only
      (`|b| <= d <= |a|`) and both blocks fit in the line. */
  lemma EchoAcrossBlocks(line: seq<real>, a: seq<real>, b: seq<real>, w: int, d: int, k: int)
    requires 0 <= w < |line| && |a| + |b| <= |line| && |b| <= d <= |a| && 0 <= k < |b|
    ensures EchoChannel(b, FillChannel(line, a, w), Advance(w, |a|, |line|), d)[k]
         == b[k] + DelayGain * a[|a| + k - d]
  {
    var written := FillChannel(line, a, w);
    var next := Advance(w, |a|, |line|);
    WrittenBehindCursor(line, written, a, w, next, |a|, d, k);
    EchoOfLineSample(b, written, next, d, k, a[|a| + k - d]);
  }

  /** `EchoFromHistory` for a line whose sample under the read is known. */
  lemma EchoOfLineSample(block: seq<real>, line: seq<real>, w: int, d: int, k: int, v: real)
    requires 0 <= w < |line| && 0 <= k < |block| && k < d && d - k + |block| <= |line|
    requires line[(w - d + k) % |line|] == v
    ensures EchoChannel(block, line, w, d)[k] == block[k] + DelayGain * v
  {
    EchoFromHistory(block, line, w, d, k);
  }

  /** `d` places behind the advanced cursor, `k` samples on, the line holds
      sample `n + k - d` of the block written before the cursor moved. */
  lemma WrittenBehindCursor(line: seq<real>, written: seq<real>, a: seq<real>, w: int, next: int, n: int, d: int, k: int)
    requires 0 <= w < |line| && |a| == n && n <= |line| && 0 <= k < d <= n + k
    requires written == FillChannel(line, a, w) && next == Advance(w, n, |line|)
    ensures written[(next - d + k) % |line|] == a[n + k - d]
  {
    AdvanceBehind(w, n, d, k, |line|);
    FillChannelPlaces(line, a, w, n + k - d);
  }

  /** Lines 280-282 for one band and one channel: `fillBuffer`,
      `readFromBuffer`, `fillBuffer`. The band channel becomes its echo; the
      delay-line channel ends up holding that echo, the first write having
      been overwritten by the second. Other channels are untouched. */
  function EchoBand(band: Buffer<real>, line: Buffer<real>, channel: int, w: int, d: int): (r: (Buffer<real>, Buffer<real>))
    requires 0 <= channel < |band| && channel < |line|
    requires 0 <= w < |line[channel]| && |band[channel]| <= |line[channel]|
    requires 0 <= d <= w + |line[channel]|
    ensures r.0 == band[channel := EchoChannel(band[channel], line[channel], w, d)]
    ensures r.1 == line[channel := FillChannel(line[channel], EchoChannel(band[channel], line[channel], w, d), w)]
  {
    var filled := FillBuffer(band, line, channel, w);
    var wet := ReadFromBuffer(band, filled, channel, w, d);
    var refilled := FillBuffer(wet, filled, channel, w);
    var echo := EchoChannel(band[channel], line[channel], w, d);
    EchoIsFillThenRead(band[channel], line[channel], w, d);
    assert filled[channel] == FillChannel(line[channel], band[channel], w);
    assert wet[channel] == echo;
    FillTwiceKeepsSecond(line[channel], band[channel], echo, w);
    assert refilled[channel] == FillChannel(line[channel], echo, w);
    (wet, refilled)
  }

  /** The shapes the delay loop works on: three band blocks of `numChannels`
      by `numSamples`, three delay buffers of `numChannels` by `size`. */
  predicate LoopShapes(bands: seq<Buffer<real>>, lines: seq<Buffer<real>>, numChannels: nat, numSamples: nat, size: nat) {
    && |bands| == NumBands && |lines| == NumBands
    && AllShaped(bands, numChannels, numSamples)
    && AllShaped(lines, numChannels, size)
    && numSamples <= size
  }

  /** The band loop of line 278 for one channel: each band in order runs
      the fill, read, fill sequence on that channel. Channel `channel` of
      every band becomes its echo and channel `channel` of every delay line
      holds that echo at the cursor; other channels are left alone. */
  method DelayBands(bands: seq<Buffer<real>>, lines: seq<Buffer<real>>, channel: int,
                    w: int, d: int, numChannels: nat, numSamples: nat, size: nat)
    returns (wet: seq<Buffer<real>>, written: seq<Buffer<real>>)
    requires LoopShapes(bands, lines, numChannels, numSamples, size)
    requires 0 <= channel < numChannels
    requires 0 <= w < size && 0 <= d <= w + size
    ensures LoopShapes(wet, written, numChannels, numSamples, size)
    ensures forall j, c {:trigger wet[j][c]} :: 0 <= j < NumBands && 0 <= c < numChannels ==>
      wet[j][c] == if c == channel then EchoChannel(bands[j][c], lines[j][c], w, d) else bands[j][c]
    ensures forall j, c {:trigger written[j][c]} :: 0 <= j < NumBands && 0 <= c < numChannels ==>
      written[j][c] == if c == channel
                       then FillChannel(lines[j][c], EchoChannel(bands[j][c], lines[j][c], w, d), w)
                       else lines[j][c]
  {
    wet, written := bands, lines;
    var i := 0;
    while i < NumBands
      invariant 0 <= i <= NumBands
      invariant LoopShapes(wet, written, numChannels, numSamples, size)
      invariant forall j :: i <= j < NumBands ==> wet[j] == bands[j] && written[j] == lines[j]
      invariant forall j, c {:trigger wet[j][c]} :: 0 <= j < i && 0 <= c < numChannels ==>
        wet[j][c] == if c == channel then EchoChannel(bands[j][c], lines[j][c], w, d) else bands[j][c]
      invariant forall j, c {:trigger written[j][c]} :: 0 <= j < i && 0 <= c < numChannels ==>
        written[j][c] == if c == channel
                         then FillChannel(lines[j][c], EchoChannel(bands[j][c], lines[j][c], w, d), w)
                         else lines[j][c]
    {
      var step := EchoBand(bands[i], lines[i], channel, w, d);
      wet, written := wet[i := step.0], written[i := step.1];
      i := i + 1;
    }
  }

  /** The channel loop of line 275 around the band loop: every band channel
      `c < numInputChannels` becomes its echo and its delay line holds that
      echo at the cursor; every other channel is left alone. */
  method DelayLoop(bands: seq<Buffer<real>>, lines: seq<Buffer<real>>, numInputChannels: int,
                   w: int, d: int, numChannels: nat, numSamples: nat, size: nat)
    returns (wet: seq<Buffer<real>>, written: seq<Buffer<real>>)
    requires LoopShapes(bands, lines, numChannels, numSamples, size)
    requires 0 <= numInputChannels <= numChannels
    requires 0 <= w < size && 0 <= d <= w + size
    ensures LoopShapes(wet, written, numChannels, numSamples, size)
    ensures forall j, c {:trigger wet[j][c]} :: 0 <= j < NumBands && 0 <= c < numChannels ==>
      wet[j][c] == if c < numInputChannels then EchoChannel(bands[j][c], lines[j][c], w, d) else bands[j][c]
    ensures forall j, c {:trigger written[j][c]} :: 0 <= j < NumBands && 0 <= c < numChannels ==>
      written[j][c] == if c < numInputChannels
                       then FillChannel(lines[j][c], EchoChannel(bands[j][c], lines[j][c], w, d), w)
                       else lines[j][c]
  {
    wet, written := bands, lines;
    var channel := 0;
    while channel < numInputChannels
      invariant 0 <= channel <= numInputChannels
      invariant LoopShapes(wet, written, numChannels, numSamples, size)
      invariant forall j, c {:trigger wet[j][c]} :: 0 <= j < NumBands && 0 <= c < channel ==>
        wet[j][c] == EchoChannel(bands[j][c], lines[j][c], w, d)
      invariant forall j, c {:trigger wet[j][c]} :: 0 <= j < NumBands && channel <= c < numChannels ==>
        wet[j][c] == bands[j][c]
      invariant forall j, c {:trigger written[j][c]} :: 0 <= j < NumBands && 0 <= c < channel ==>
        written[j][c] == FillChannel(lines[j][c], EchoChannel(bands[j][c], lines[j][c], w, d), w)
      invariant forall j, c {:trigger written[j][c]} :: 0 <= j < NumBands && channel <= c < numChannels ==>
        written[j][c] == lines[j][c]
      decreases numInputChannels - channel
    {
      wet, written := DelayBands(wet, written, channel, w, d, numChannels, numSamples, size);
      channel := channel + 1;
    }
  }

  /** The wet band blocks at the end of the delay loop of one block: channel
      `c` of band `i` is its echo off the processor's delay buffer when `c` is
      an input channel, and the dry band channel otherwise. */
  function WetBands(p: Processor, bands: seq<Buffer<real>>, numSamples: nat, numInputChannels: int, d: int): (r: seq<Buffer<real>>)
    requires Valid(p) && |bands| == NumBands && AllShaped(bands, p.numChannels, numSamples)
    requires numSamples <= p.delayLength && 0 <= d <= p.writePosition + p.delayLength
    ensures |r| == NumBands && AllShaped(r, p.numChannels, numSamples)
  {
    seq(NumBands, i requires 0 <= i < NumBands =>
      WetBand(bands[i], p.delayBuffers[i], p.writePosition, d, p.numChannels, numSamples, p.delayLength, numInputChannels))
  }

  /** One band of `WetBands`. */
  function WetBand(band: Buffer<real>, line: Buffer<real>, w: int, d: int, numChannels: nat, numSamples: nat,
                   size: nat, numInputChannels: int): (r: Buffer<real>)
    requires IsShaped(band, numChannels, numSamples) && IsShaped(line, numChannels, size)
    requires numSamples <= size && 0 <= w < size && 0 <= d <= w + size
    ensures IsShaped(r, numChannels, numSamples)
  {
    seq(numChannels, c requires 0 <= c < numChannels =>
      if c < numInputChannels then EchoChannel(band[c], line[c], w, d) else band[c])
  }

  /** Channel `c` of wet band `i` that block `b` produces off processor `p`. */
  function WetChannel(p: Processor, b: BlockInput, i: int, c: int): (r: seq<real>)
    requires Valid(p) && Admissible(p, b) && 0 <= i < NumBands && 0 <= c < p.numChannels
    ensures |r| == b.numSamples
  {
    WetBands(p, b.bands, b.numSamples, b.numInputChannels, b.params.delay)[i][c]
  }

  /** What the caller must hand to one block: the host buffer and the three
      band blocks shaped alike, no longer than the delay buffers, and gains
      for each band. */
  predicate BlockFits(p: Processor, buffer: Buffer<real>, numSamples: nat, bands: seq<Buffer<real>>,
                      numInputChannels: int, params: Params) {
    && IsShaped(buffer, p.numChannels, numSamples) && numSamples <= p.delayLength
    && |bands| == NumBands && AllShaped(bands, p.numChannels, numSamples)
    && 0 <= numInputChannels <= p.numChannels
    && |params.dryGains| == NumBands && |params.wetGains| == NumBands
    && 0 <= params.delay
  }

  /** The processor `next` is what one block leaves behind: it is valid with
      the same shape, the delay buffers of the input channels hold the wet
      band signal written at the old cursor, the others are untouched, and
      the cursor has moved on by the block length. */
  predicate Stepped(p: Processor, next: Processor, bands: seq<Buffer<real>>, numSamples: nat,
                    numInputChannels: int, d: int)
    requires Valid(p) && |bands| == NumBands && AllShaped(bands, p.numChannels, numSamples)
    requires numSamples <= p.delayLength && 0 <= d <= p.writePosition + p.delayLength
  {
    && Valid(next)
    && next.numChannels == p.numChannels && next.delayLength == p.delayLength
    && next.writePosition == Advance(p.writePosition, numSamples, p.delayLength)
    && var wet := WetBands(p, bands, numSamples, numInputChannels, d);
       forall i, c {:trigger next.delayBuffers[i][c]} :: 0 <= i < NumBands && 0 <= c < p.numChannels ==>
         next.delayBuffers[i][c] ==
           if c < numInputChannels then FillChannel(p.delayBuffers[i][c], wet[i][c], p.writePosition)
           else p.delayBuffers[i][c]
  }

  /** One call of the block callback (lines 265-327). The output is, sample
      by sample, the gain-weighted sum of the three dry band blocks and the
      three wet ones; the delay buffers of the input channels hold the wet
      signal at the cursor, the others are untouched; the cursor moves on by
      the block length. */
  method ProcessBlock(p: Processor, buffer: Buffer<real>, numSamples: nat, bands: seq<Buffer<real>>,
                      numInputChannels: int, params: Params) returns (output: Buffer<real>, next: Processor)
    requires Valid(p) && BlockFits(p, buffer, numSamples, bands, numInputChannels, params)
    requires params.delay <= p.writePosition + p.delayLength
    ensures WeightedSum(output, bands, WetBands(p, bands, numSamples, numInputChannels, params.delay),
                        params.dryGains, params.wetGains, p.numChannels, numSamples)
    ensures Stepped(p, next, bands, numSamples, numInputChannels, params.delay)
  {
    var wet, written := DelayStage(p, bands, numSamples, numInputChannels, params.delay);
    output := Mix(buffer, bands, wet, params.dryGains, params.wetGains, numSamples);
    next := Processor(written, Advance(p.writePosition, numSamples, p.delayLength), p.numChannels, p.delayLength);
  }

  /** Delay across consecutive blocks: after a block of `n1` samples, an
      input channel of the next block's wet band hears, `d` samples back, the
      wet signal the previous block left in the delay line, as long as the
      delay reaches back into that block only (`n2 <= d <= n1`) and the two
      blocks fit in the delay buffer together. */
  lemma NextBlockHearsPrevious(p: Processor, next: Processor, bands1: seq<Buffer<real>>, n1: nat,
                               bands2: seq<Buffer<real>>, n2: nat, numInputChannels: int,
                               d1: int, d: int, i: int, c: int, k: int)
    requires Valid(p) && |bands1| == NumBands && AllShaped(bands1, p.numChannels, n1)
    requires n1 <= p.delayLength && 0 <= d1 <= p.writePosition + p.delayLength
    requires Stepped(p, next, bands1, n1, numInputChannels, d1)
    requires |bands2| == NumBands && AllShaped(bands2, p.numChannels, n2)
    requires n1 + n2 <= p.delayLength && n2 <= d <= n1
    requires 0 <= i < NumBands && 0 <= c < numInputChannels && c < p.numChannels && 0 <= k < n2
    ensures WetBands(next, bands2, n2, numInputChannels, d)[i][c][k]
         == bands2[i][c][k] + DelayGain * WetBands(p, bands1, n1, numInputChannels, d1)[i][c][n1 + k - d]
  {
    StepFacts(p, next, bands1, n1, bands2, n2, numInputChannels, d1, d, i, c);
    EchoOfWrittenLine(WetBands(next, bands2, n2, numInputChannels, d)[i][c], p.delayBuffers[i][c],
                      next.delayBuffers[i][c], WetBands(p, bands1, n1, numInputChannels, d1)[i][c], bands2[i][c],
                      p.writePosition, next.writePosition, n1, d, k);
  }

  /** `EchoAcrossBlocks` for a wet channel `heard`, line `written` and cursor
      `next` known to be the ones a previous block `a` of `n` samples left:
      sample `k` hears sample `n + k - d` of `a` whenever the read lands in
      `a` and not on `b`'s own write. */
  lemma EchoOfWrittenLine(heard: seq<real>, line: seq<real>, written: seq<real>, a: seq<real>, b: seq<real>,
                          w: int, next: int, n: int, d: int, k: int)
    requires 0 <= w < |line| && |a| == n && n <= |line| && 0 <= k < |b| && k < d <= n + k && d - k + |b| <= |line|
    requires written == FillChannel(line, a, w) && next == Advance(w, n, |line|)
    requires heard == EchoChannel(b, written, next, d)
    ensures heard[k] == b[k] + DelayGain * a[n + k - d]
  {
    WrittenBehindCursor(line, written, a, w, next, n, d, k);
    EchoOfLineSample(b, written, next, d, k, a[n + k - d]);
  }

  /** What a block leaves for channel `c < numInputChannels` of band `i`,
      gathered for `NextBlockHearsPrevious`: the delay line holds the wet
      channel at the old cursor, the cursor has moved on by `n1`, and the
      next wet channel is the echo off that line. */
  lemma StepFacts(p: Processor, next: Processor, bands1: seq<Buffer<real>>, n1: nat,
                  bands2: seq<Buffer<real>>, n2: nat, numInputChannels: int, d1: int, d: int, i: int, c: int)
    requires Valid(p) && |bands1| == NumBands && AllShaped(bands1, p.numChannels, n1)
    requires n1 <= p.delayLength && 0 <= d1 <= p.writePosition + p.delayLength
    requires Stepped(p, next, bands1, n1, numInputChannels, d1)
    requires |bands2| == NumBands && AllShaped(bands2, p.numChannels, n2)
    requires n1 + n2 <= p.delayLength && n2 <= d <= n1
    requires 0 <= i < NumBands && 0 <= c < numInputChannels && c < p.numChannels
    ensures 0 <= p.writePosition < |p.delayBuffers[i][c]|
    ensures |WetBands(p, bands1, n1, numInputChannels, d1)[i][c]| == n1
    ensures |bands2[i][c]| == n2 && n1 + n2 <= |p.delayBuffers[i][c]|
    ensures next.delayBuffers[i][c]
         == FillChannel(p.delayBuffers[i][c], WetBands(p, bands1, n1, numInputChannels, d1)[i][c], p.writePosition)
    ensures next.writePosition == Advance(p.writePosition, n1, |p.delayBuffers[i][c]|)
    ensures WetBands(next, bands2, n2, numInputChannels, d)[i][c]
         == EchoChannel(bands2[i][c], next.delayBuffers[i][c], next.writePosition, d)
  {
  }

  /** The delay loop run on the processor's own delay buffers at its cursor:
      the band blocks come out as `WetBands`, and each delay buffer of an
      input channel holds its wet signal at the cursor. */
  method DelayStage(p: Processor, bands: seq<Buffer<real>>, numSamples: nat, numInputChannels: int, d: int)
    returns (wet: seq<Buffer<real>>, written: seq<Buffer<real>>)
    requires Valid(p) && |bands| == NumBands && AllShaped(bands, p.numChannels, numSamples)
    requires numSamples <= p.delayLength && 0 <= numInputChannels <= p.numChannels
    requires 0 <= d <= p.writePosition + p.delayLength
    ensures wet == WetBands(p, bands, numSamples, numInputChannels, d)
    ensures |written| == NumBands && AllShaped(written, p.numChannels, p.delayLength)
    ensures forall i, c {:trigger written[i][c]} :: 0 <= i < NumBands && 0 <= c < p.numChannels ==>
      written[i][c] ==
        if c < numInputChannels then FillChannel(p.delayBuffers[i][c], wet[i][c], p.writePosition)
        else p.delayBuffers[i][c]
  {
    wet, written := DelayLoop(bands, p.delayBuffers, numInputChannels, p.writePosition, d,
                              p.numChannels, numSamples, p.delayLength);
    ghost var expected := WetBands(p, bands, numSamples, numInputChannels, d);
    forall i | 0 <= i < NumBands
      ensures wet[i] == expected[i]
    {
      assert |wet[i]| == |expected[i]|;
      forall c | 0 <= c < p.numChannels
        ensures wet[i][c] == expected[i][c]
      {
        WetBandsEntry(p, bands, numSamples, numInputChannels, d, i, c);
      }
    }
    assert wet == expected;
  }

  /** Channel `c` of wet band `i`: the echo off the processor's delay buffer
      for an input channel, the dry band channel otherwise. */
  lemma WetBandsEntry(p: Processor, bands: seq<Buffer<real>>, numSamples: nat, numInputChannels: int, d: int, i: int, c: int)
    requires Valid(p) && |bands| == NumBands && AllShaped(bands, p.numChannels, numSamples)
    requires numSamples <= p.delayLength && 0 <= d <= p.writePosition + p.delayLength
    requires 0 <= i < NumBands && 0 <= c < p.numChannels
    ensures WetBands(p, bands, numSamples, numInputChannels, d)[i][c]
         == if c < numInputChannels then EchoChannel(bands[i][c], p.delayBuffers[i][c], p.writePosition, d)
            else bands[i][c]
  {
  }

  /** One block's inputs, for a run of consecutive callbacks. */
  datatype BlockInput = BlockInput(buffer: Buffer<real>, numSamples: nat, bands: seq<Buffer<real>>,
                                   numInputChannels: int, params: Params)

  /** A block the processor accepts whatever the cursor: the delay fits the
      delay buffer. */
  predicate Admissible(p: Processor, b: BlockInput) {
    BlockFits(p, b.buffer, b.numSamples, b.bands, b.numInputChannels, b.params) && b.params.delay <= p.delayLength
  }

  /** Block `b`, met by processor `p`, produced `output` and left `next`
      behind: it fitted `p`, its output is the gain-weighted sum of its dry
      bands and the wet bands heard off `p`, and `next` is `Stepped` from `p`. */
  predicate Performed(p: Processor, b: BlockInput, output: Buffer<real>, next: Processor) {
    && Valid(p) && Admissible(p, b)
    && WeightedSum(output, b.bands, WetBands(p, b.bands, b.numSamples, b.numInputChannels, b.params.delay),
                   b.params.dryGains, b.params.wetGains, p.numChannels, b.numSamples)
    && Stepped(p, next, b.bands, b.numSamples, b.numInputChannels, b.params.delay)
  }

  /** The number of samples in blocks `j` up to (not including) `m`. */
  function Span(blocks: seq<BlockInput>, j: int, m: int): nat
    requires 0 <= j <= m <= |blocks|
    decreases m - j
  {
    if m == j then 0 else Span(blocks, j, m - 1) + blocks[m - 1].numSamples
  }

  /** A run of consecutive callbacks from processor `p`: `states[j]` is the
      processor block `j` meets, valid and of `p`'s shape, block `j` fits it,
      and block `j` performed on it produced `outputs[j]` and left
      `states[j + 1]`. */
  predicate Trace(p: Processor, blocks: seq<BlockInput>, outputs: seq<Buffer<real>>, states: seq<Processor>) {
    && |outputs| == |blocks| && |states| == |blocks| + 1 && states[0] == p
    && (forall j {:trigger states[j]} :: 0 <= j < |states| ==>
          Valid(states[j]) && states[j].numChannels == p.numChannels && states[j].delayLength == p.delayLength)
    && (forall j {:trigger Admissible(states[j], blocks[j])} :: 0 <= j < |blocks| ==> Admissible(states[j], blocks[j]))
    && (forall j {:trigger outputs[j]} :: 0 <= j < |blocks| ==>
          Performed(states[j], blocks[j], outputs[j], states[j + 1]))
  }

  /** Consecutive callbacks. `states[j]` is the processor block `j` starts
      from. Every output is the gain-weighted sum of its block's dry bands and
      the wet bands heard off that processor, and every processor is the one
      the block before it left behind (`Stepped`), so what one block writes is
      what the next one reads. The cursor ends as the starting cursor advanced
      by the total number of processed samples, modulo the delay-buffer
      length. */
  method Run(p: Processor, blocks: seq<BlockInput>) returns (outputs: seq<Buffer<real>>, states: seq<Processor>)
    requires Valid(p)
    requires forall j {:trigger blocks[j]} :: 0 <= j < |blocks| ==> Admissible(p, blocks[j])
    ensures Trace(p, blocks, outputs, states)
    ensures states[|blocks|].writePosition == Advance(p.writePosition, Span(blocks, 0, |blocks|), p.delayLength)
  {
    outputs, states := [], [p];
    var r := p;
    assert Advance(p.writePosition, 0, p.delayLength) == p.writePosition;
    var k := 0;
    while k < |blocks|
      invariant 0 <= k <= |blocks|
      invariant |outputs| == k && |states| == k + 1 && states[0] == p && states[k] == r
      invariant forall j {:trigger states[j]} :: 0 <= j < |states| ==>
        Valid(states[j]) && states[j].numChannels == p.numChannels && states[j].delayLength == p.delayLength
      invariant r.writePosition == Advance(p.writePosition, Span(blocks, 0, k), p.delayLength)
      invariant forall j {:trigger outputs[j]} :: 0 <= j < k ==>
        Performed(states[j], blocks[j], outputs[j], states[j + 1])
    {
      var b := blocks[k];
      assert Admissible(p, b);
      var output, next := ProcessBlock(r, b.buffer, b.numSamples, b.bands, b.numInputChannels, b.params);
      assert Performed(r, b, output, next);
      AdvanceCompose(p.writePosition, Span(blocks, 0, k), b.numSamples, p.delayLength);
      outputs, states, r := outputs + [output], states + [next], next;
      k := k + 1;
    }
  }
}

=== FILE: history.dfy ===
/**
  The delay line over a run of consecutive callbacks. The blocks of a run
  write their wet signal end to end around each delay buffer, so a later
  block, reading `d` samples behind the cursor, hears the wet signal that
  was written exactly `d` samples before it, however many blocks back that
  is, as long as the ring has not been written round since.
 */
module History {
  import opened Buffers
  import opened Cursor
  import opened DelayLine
  import opened BandMixer
  import opened Engine

  /** The blocks `t` to `m - 1` of a run hold at least the first one's
      samples. */
  lemma {:induction false} SpanCoversFirst(blocks: seq<BlockInput>, t: int, m: int)
    requires 0 <= t < m <= |blocks|
    ensures blocks[t].numSamples <= Span(blocks, t, m)
    decreases m - t
  {
    if m > t + 1 {
      SpanCoversFirst(blocks, t, m - 1);
    }
  }

  /** Block `t` of a run moves the cursor on by its length and leaves a
      processor of the same shape. */
  lemma StepCursor(p: Processor, blocks: seq<BlockInput>, outputs: seq<Buffer<real>>, states: seq<Processor>, t: int)
    requires Trace(p, blocks, outputs, states) && 0 <= t < |blocks|
    ensures 0 <= states[t].writePosition < p.delayLength
    ensures states[t + 1].writePosition == Advance(states[t].writePosition, blocks[t].numSamples, p.delayLength)
  {
    assert Performed(states[t], blocks[t], outputs[t], states[t + 1]);
  }

  /** Over blocks `t` to `m - 1` of a run the cursor moves on by the number
      of samples they hold, modulo the delay length. */
  lemma {:induction false} CursorAfter(p: Processor, blocks: seq<BlockInput>, outputs: seq<Buffer<real>>,
                                       states: seq<Processor>, t: int, m: int)
    requires Trace(p, blocks, outputs, states) && 0 <= t <= m <= |blocks|
    ensures states[m].writePosition == Advance(states[t].writePosition, Span(blocks, t, m), p.delayLength)
    decreases m - t
  {
    assert Valid(states[t]) && states[t].delayLength == p.delayLength;
    if m == t {
      assert Advance(states[t].writePosition, 0, p.delayLength) == states[t].writePosition;
    } else {
      CursorAfter(p, blocks, outputs, states, t, m - 1);
      StepCursor(p, blocks, outputs, states, m - 1);
      AdvanceCompose(states[t].writePosition, Span(blocks, t, m - 1), blocks[m - 1].numSamples, p.delayLength);
    }
  }

  /** Block `t` of a run, on an input channel: the delay line it leaves is
      the one it met with its wet channel written at the cursor. */
  lemma StepLine(p: Processor, blocks: seq<BlockInput>, outputs: seq<Buffer<real>>, states: seq<Processor>,
                 i: int, c: int, t: int) returns (wet: seq<real>)
    requires Trace(p, blocks, outputs, states)
    requires 0 <= t < |blocks| && 0 <= i < NumBands && 0 <= c < p.numChannels && c < blocks[t].numInputChannels
    ensures 0 <= states[t].writePosition < |states[t].delayBuffers[i][c]| == p.delayLength
    ensures |wet| == blocks[t].numSamples <= p.delayLength
    ensures wet == WetChannel(states[t], blocks[t], i, c)
    ensures states[t + 1].delayBuffers[i][c] == FillChannel(states[t].delayBuffers[i][c], wet, states[t].writePosition)
  {
    assert Performed(states[t], blocks[t], outputs[t], states[t + 1]);
    wet := WetChannel(states[t], blocks[t], i, c);
  }

  /** Block `m` of a run, on an input channel, hears the echo off the delay
      line and cursor it met. */
  lemma WetIsEcho(p: Processor, blocks: seq<BlockInput>, outputs: seq<Buffer<real>>, states: seq<Processor>,
                  i: int, c: int, m: int)
    requires Trace(p, blocks, outputs, states)
    requires 0 <= m < |blocks| && 0 <= i < NumBands && 0 <= c < p.numChannels && c < blocks[m].numInputChannels
    ensures 0 <= states[m].writePosition < |states[m].delayBuffers[i][c]| == p.delayLength
    ensures blocks[m].numSamples <= p.delayLength && 0 <= blocks[m].params.delay <= p.delayLength
    ensures WetChannel(states[m], blocks[m], i, c)
         == EchoChannel(blocks[m].bands[i][c], states[m].delayBuffers[i][c], states[m].writePosition, blocks[m].params.delay)
  {
    var b := blocks[m];
    assert Performed(states[m], b, outputs[m], states[m + 1]);
    WetBandsEntry(states[m], b.bands, b.numSamples, b.numInputChannels, b.params.delay, i, c);
  }

  /** Block `u` of a run leaves alone every position of a delay buffer that
      lies outside the `n` samples it writes from the cursor, on every
      channel, input channel or not. */
  lemma StepKeeps(p: Processor, blocks: seq<BlockInput>, outputs: seq<Buffer<real>>, states: seq<Processor>,
                  i: int, c: int, u: int, x: int)
    requires Trace(p, blocks, outputs, states)
    requires 0 <= u < |blocks| && 0 <= i < NumBands && 0 <= c < p.numChannels
    requires 0 <= x < p.delayLength && (x - states[u].writePosition) % p.delayLength >= blocks[u].numSamples
    ensures |states[u].delayBuffers[i][c]| == |states[u + 1].delayBuffers[i][c]| == p.delayLength
    ensures states[u + 1].delayBuffers[i][c][x] == states[u].delayBuffers[i][c][x]
  {
    if c < blocks[u].numInputChannels {
      var wet := StepWrites(p, blocks, outputs, states, i, c, u);
      KeptAt(states[u + 1].delayBuffers[i][c], states[u].delayBuffers[i][c], wet, states[u].writePosition, x, p.delayLength);
    } else {
      StepSame(p, blocks, outputs, states, i, c, u);
    }
  }

  /** Block `u` of a run leaves the delay line of a channel that is not one
      of its input channels as it found it. */
  lemma StepSame(p: Processor, blocks: seq<BlockInput>, outputs: seq<Buffer<real>>, states: seq<Processor>,
                 i: int, c: int, u: int)
    requires Trace(p, blocks, outputs, states)
    requires 0 <= u < |blocks| && 0 <= i < NumBands && 0 <= c < p.numChannels && blocks[u].numInputChannels <= c
    ensures |states[u].delayBuffers[i][c]| == p.delayLength
    ensures states[u + 1].delayBuffers[i][c] == states[u].delayBuffers[i][c]
  {
    assert Performed(states[u], blocks[u], outputs[u], states[u + 1]);
  }

  /** `FillChannel` keeps every position outside the block it writes, for a
      line `next` known to be the write. */
  lemma KeptAt(next: seq<real>, line: seq<real>, block: seq<real>, w: int, x: int, size: int)
    requires |line| == size && 0 <= w < size && |block| <= size && 0 <= x < size && (x - w) % size >= |block|
    requires next == FillChannel(line, block, w)
    ensures |next| == size && next[x] == line[x]
  {
  }

  /** Nothing after block `t` overwrites sample `s` of what it wrote, as
      long as the samples written from there on, `Span(t, m) - s` of them,
      do not go round the ring. */
  lemma {:induction false} Keeps(p: Processor, blocks: seq<BlockInput>, outputs: seq<Buffer<real>>,
                                 states: seq<Processor>, i: int, c: int, t: int, m: int, s: int)
    requires Trace(p, blocks, outputs, states)
    requires 0 <= t < m <= |blocks| && 0 <= i < NumBands && 0 <= c < p.numChannels
    requires 0 <= s < blocks[t].numSamples && Span(blocks, t, m) - s <= p.delayLength
    ensures 0 <= states[t].writePosition < p.delayLength
    ensures |states[m].delayBuffers[i][c]| == |states[t + 1].delayBuffers[i][c]| == p.delayLength
    ensures states[m].delayBuffers[i][c][(states[t].writePosition + s) % p.delayLength]
         == states[t + 1].delayBuffers[i][c][(states[t].writePosition + s) % p.delayLength]
    decreases m - t
  {
    StepCursor(p, blocks, outputs, states, t);
    assert Valid(states[t + 1]) && states[t + 1].numChannels == p.numChannels;
    if m > t + 1 {
      Keeps(p, blocks, outputs, states, i, c, t, m - 1, s);
      CursorAfter(p, blocks, outputs, states, t, m - 1);
      SpanCoversFirst(blocks, t, m - 1);
      OffsetBehind(states[t].writePosition, Span(blocks, t, m - 1), s, p.delayLength);
      StepKeeps(p, blocks, outputs, states, i, c, m - 1, (states[t].writePosition + s) % p.delayLength);
    }
  }

  /** What block `t` wrote survives: at block `m`, the delay line of one of
      block `t`'s input channels still holds sample `s` of its wet signal
      where block `t` wrote it, as long as the samples written from there on,
      `Span(t, m) - s` of them, do not go round the ring. */
  lemma Survives(p: Processor, blocks: seq<BlockInput>, outputs: seq<Buffer<real>>,
                 states: seq<Processor>, i: int, c: int, t: int, m: int, s: int)
    requires Trace(p, blocks, outputs, states)
    requires 0 <= t < m <= |blocks| && 0 <= i < NumBands && 0 <= c < p.numChannels && c < blocks[t].numInputChannels
    requires 0 <= s < blocks[t].numSamples && Span(blocks, t, m) - s <= p.delayLength
    ensures 0 <= states[t].writePosition < p.delayLength == |states[m].delayBuffers[i][c]|
    ensures states[m].delayBuffers[i][c][(states[t].writePosition + s) % p.delayLength]
         == WetChannel(states[t], blocks[t], i, c)[s]
  {
    Keeps(p, blocks, outputs, states, i, c, t, m, s);
    Written(p, blocks, outputs, states, i, c, t, s);
  }

  /** Block `t` of a run, on an input channel, leaves sample `s` of its wet
      signal `s` samples past the cursor it met. */
  lemma Written(p: Processor, blocks: seq<BlockInput>, outputs: seq<Buffer<real>>,
                states: seq<Processor>, i: int, c: int, t: int, s: int)
    requires Trace(p, blocks, outputs, states)
    requires 0 <= t < |blocks| && 0 <= i < NumBands && 0 <= c < p.numChannels && c < blocks[t].numInputChannels
    requires 0 <= s < blocks[t].numSamples
    ensures 0 <= states[t].writePosition < p.delayLength == |states[t + 1].delayBuffers[i][c]|
    ensures states[t + 1].delayBuffers[i][c][(states[t].writePosition + s) % p.delayLength]
         == WetChannel(states[t], blocks[t], i, c)[s]
  {
    var wet := StepWrites(p, blocks, outputs, states, i, c, t);
    WrittenAt(states[t + 1].delayBuffers[i][c], states[t].delayBuffers[i][c], wet, states[t].writePosition, s, p.delayLength);
    WetAt(p, blocks, outputs, states, i, c, t, wet, s);
  }

  /** `StepLine` with the written block left unnamed, so that a caller
      indexing the new line does not also unfold the wet signal. */
  lemma StepWrites(p: Processor, blocks: seq<BlockInput>, outputs: seq<Buffer<real>>, states: seq<Processor>,
                   i: int, c: int, t: int) returns (wet: seq<real>)
    requires Trace(p, blocks, outputs, states)
    requires 0 <= t < |blocks| && 0 <= i < NumBands && 0 <= c < p.numChannels && c < blocks[t].numInputChannels
    ensures 0 <= states[t].writePosition < |states[t].delayBuffers[i][c]| == p.delayLength
    ensures |wet| == blocks[t].numSamples <= p.delayLength
    ensures states[t + 1].delayBuffers[i][c] == FillChannel(states[t].delayBuffers[i][c], wet, states[t].writePosition)
  {
    wet := StepLine(p, blocks, outputs, states, i, c, t);
  }

  /** Whatever block of the right length block `t` is seen to have written,
      its sample `s` is the wet signal's. */
  lemma WetAt(p: Processor, blocks: seq<BlockInput>, outputs: seq<Buffer<real>>, states: seq<Processor>,
              i: int, c: int, t: int, wet: seq<real>, s: int)
    requires Trace(p, blocks, outputs, states)
    requires 0 <= t < |blocks| && 0 <= i < NumBands && 0 <= c < p.numChannels && c < blocks[t].numInputChannels
    requires |wet| == blocks[t].numSamples <= p.delayLength && 0 <= s < |wet|
    requires states[t + 1].delayBuffers[i][c] == FillChannel(states[t].delayBuffers[i][c], wet, states[t].writePosition)
    ensures wet[s] == WetChannel(states[t], blocks[t], i, c)[s]
  {
    var written := StepLine(p, blocks, outputs, states, i, c, t);
    FillInjective(states[t].delayBuffers[i][c], wet, written, states[t].writePosition, s);
  }

  /** `FillChannelPlaces` for a line `next` known to be the write. */
  lemma WrittenAt(next: seq<real>, line: seq<real>, block: seq<real>, w: int, s: int, size: int)
    requires |line| == size && 0 <= w < size && |block| <= size && 0 <= s < |block|
    requires next == FillChannel(line, block, w)
    ensures next[(w + s) % size] == block[s]
  {
    FillChannelPlaces(line, block, w, s);
  }

  /** Delay across blocks: sample `k` of block `m`, on a channel that is an
      input channel of blocks `t` and `m`, hears sample `Span(t, m) + k - d`
      of block `t`'s wet signal, the one written exactly `d` samples before
      it, whenever that names a sample of block `t` and the read lands before
      block `m`'s own write (`d - k <= L - n`). */
  lemma EchoHearsEarlierBlock(p: Processor, blocks: seq<BlockInput>, outputs: seq<Buffer<real>>,
                              states: seq<Processor>, i: int, c: int, t: int, m: int, k: int)
    requires Trace(p, blocks, outputs, states)
    requires 0 <= t < m < |blocks| && 0 <= i < NumBands && 0 <= c < p.numChannels
    requires c < blocks[t].numInputChannels && c < blocks[m].numInputChannels
    requires 0 <= k < blocks[m].numSamples && blocks[m].params.delay - k <= p.delayLength - blocks[m].numSamples
    requires 0 <= Span(blocks, t, m) + k - blocks[m].params.delay < blocks[t].numSamples
    ensures WetChannel(states[m], blocks[m], i, c)[k]
         == blocks[m].bands[i][c][k]
            + DelayGain * WetChannel(states[t], blocks[t], i, c)[Span(blocks, t, m) + k - blocks[m].params.delay]
  {
    var s := Span(blocks, t, m) + k - blocks[m].params.delay;
    SpanCoversFirst(blocks, t, m);
    Survives(p, blocks, outputs, states, i, c, t, m, s);
    CursorAfter(p, blocks, outputs, states, t, m);
    HearsAt(p, blocks, outputs, states, i, c, m, k, states[t].writePosition, Span(blocks, t, m), WetChannel(states[t], blocks[t], i, c)[s]);
  }

  /** Block `m` of a run, whose cursor has moved `S` samples on from `w0`,
      hears at sample `k` what its delay line holds `S + k - d` samples past
      `w0`. */
  lemma HearsAt(p: Processor, blocks: seq<BlockInput>, outputs: seq<Buffer<real>>, states: seq<Processor>,
                i: int, c: int, m: int, k: int, w0: int, S: int, v: real)
    requires Trace(p, blocks, outputs, states)
    requires 0 <= m < |blocks| && 0 <= i < NumBands && 0 <= c < p.numChannels && c < blocks[m].numInputChannels
    requires 0 <= k < blocks[m].numSamples && k < blocks[m].params.delay
    requires blocks[m].params.delay - k <= p.delayLength - blocks[m].numSamples
    requires 0 <= w0 < p.delayLength && 0 <= S && states[m].writePosition == Advance(w0, S, p.delayLength)
    requires |states[m].delayBuffers[i][c]| == p.delayLength
    requires states[m].delayBuffers[i][c][(w0 + (S + k - blocks[m].params.delay)) % p.delayLength] == v
    ensures WetChannel(states[m], blocks[m], i, c)[k] == blocks[m].bands[i][c][k] + DelayGain * v
  {
    WetIsEcho(p, blocks, outputs, states, i, c, m);
    EchoOfSurvivor(WetChannel(states[m], blocks[m], i, c), blocks[m].bands[i][c], states[m].delayBuffers[i][c],
                   w0, S, states[m].writePosition, blocks[m].params.delay, k, p.delayLength, v);
  }

  /** The echo heard `d` samples behind a cursor `w` that has moved `S`
      samples on from `w0`: sample `k` hears what lies `S + k - d` samples
      past `w0`, while that is behind the cursor and not under the block's
      own write. */
  lemma EchoOfSurvivor(heard: seq<real>, band: seq<real>, line: seq<real>, w0: int, S: int, w: int, d: int, k: int,
                       size: int, v: real)
    requires |line| == size && 0 <= w0 < size && 0 <= S && w == Advance(w0, S, size)
    requires 0 <= k < |band| && k < d && d - k + |band| <= size
    requires line[(w0 + (S + k - d)) % size] == v
    requires heard == EchoChannel(band, line, w, d)
    ensures heard[k] == band[k] + DelayGain * v
  {
    AdvanceBehind(w0, S, d, k, |line|);
    EchoOfLineSample(band, line, w, d, k, v);
  }
}

=== FILE: tempo_sync.dfy ===
/**
  Tempo synchronisation: the note-division table of the delay-time choice
  parameter, the `ChangeDelayTime` switch that maps a choice index to a
  length in quarter notes, and the quarter-note delay in samples that the
  block callback actually uses.
 */
module TempoSync {

  /** Denominators of the choice labels "1/16", "1/8", "1/6", "1/4", "1/3",
      "1/2", "1/1", in choice-index order. */
  const NoteDenominators: seq<int> := [16, 8, 6, 4, 3, 2, 1]

  /** `ChangeDelayTime` as written: every case is a quotient of two integer
      literals, so C++ integer division (truncation toward zero) happens
      before the conversion to `float`. For these non-negative operands
      Dafny's `/` truncates the same way. */
  function ChangeDelayTime(index: int): (r: real)
    ensures r.Floor as real == r
    ensures 0.0 <= r <= 4.0
  {
    if index == 0 then (1 / 4) as real
    else if index == 1 then (1 / 2) as real
    else if index == 2 then (4 / 6) as real
    else if index == 3 then 1 as real
    else if index == 4 then (4 / 3) as real
    else if index == 5 then 2 as real
    else if index == 6 then 4 as real
    else 1 as real
  }

  /** The division lengths the labels and comments of the switch describe,
      in quarter notes: a `1/q` note lasts `4/q` quarter notes. Any other
      index falls back to a quarter note, as the switch's `default` does. */
  function DivisionFactor(index: int): (r: real)
    ensures r > 0.0
    ensures 0 <= index < |NoteDenominators| ==> r * NoteDenominators[index] as real == 4.0
    ensures !(0 <= index < |NoteDenominators|) ==> r == 1.0
  {
    if index == 0 then 0.25
    else if index == 1 then 0.5
    else if index == 2 then 2.0 / 3.0
    else if index == 3 then 1.0
    else if index == 4 then 4.0 / 3.0
    else if index == 5 then 2.0
    else if index == 6 then 4.0
    else 1.0
  }

  /** The switch as written returns the intended factor rounded down... */
  lemma ChangeDelayTimeIsFloorOfFactor(index: int)
    ensures ChangeDelayTime(index) == DivisionFactor(index).Floor as real
  {
    if index == 2 {
      assert (2.0 / 3.0).Floor == 0;
    } else if index == 4 {
      assert (4.0 / 3.0).Floor == 1;
    } else if index == 0 {
      assert (0.25).Floor == 0;
    } else if index == 1 {
      assert (0.5).Floor == 0;
    }
  }

  /** ... which loses the intended value for exactly the sixteenth, eighth,
      sixth and third notes; three of them collapse to a zero delay. */
  lemma ChangeDelayTimeDiffersExactly(index: int)
    ensures ChangeDelayTime(index) != DivisionFactor(index) <==> index in {0, 1, 2, 4}
    ensures ChangeDelayTime(index) == 0.0 <==> 0 <= index <= 2
  {
  }

  /** The quarter-note delay `sampleRate * (60 / bpm)` in samples, as
      `readFromBuffer` computes it. It fits a delay buffer of two seconds
      exactly when the tempo is at least 30 beats per minute. */
  function QuarterNoteDelay(sampleRate: real, bpm: real): (samples: real)
    requires sampleRate > 0.0 && bpm > 0.0
    ensures samples > 0.0
    ensures samples <= 2.0 * sampleRate <==> bpm >= 30.0
  {
    var beat := 60.0 / bpm;
    assert beat <= 2.0 <==> bpm >= 30.0 by {
      assert beat * bpm == 60.0;
    }
    sampleRate * beat
  }

  /** A real delay rounded up to whole samples. Truncating the read position
      `w - x` toward the past reads from exactly `WholeDelay(x)` samples back. */
  function WholeDelay(x: real): (d: int)
    ensures (d - 1) as real < x <= d as real
  {
    -((-x).Floor)
  }

  /** With a buffer of `2 * sampleRate` whole samples, the quarter-note delay
      rounded up to whole samples fits it once the tempo is at least 30
      beats per minute. */
  lemma QuarterNoteWholeDelayFits(sampleRate: real, bpm: real)
    requires sampleRate > 0.0 && bpm >= 30.0
    requires (2.0 * sampleRate).Floor as real == 2.0 * sampleRate
    ensures 0 < WholeDelay(QuarterNoteDelay(sampleRate, bpm)) <= (2.0 * sampleRate).Floor
  {
    var x := QuarterNoteDelay(sampleRate, bpm);
    var size := (2.0 * sampleRate).Floor;
    assert x <= size as real;
  }
}
